=== FILE: README.md ===
# League of Legends match crawler, modelled in Dafny

`riot_api_client.py` crawls the Riot Games API. It starts from one player (a
puuid) and works through a pool of pending players. For each player it fetches
the recent match ids. It turns every match it has not seen into one flat row per
participant, and every participant with a truthy puuid joins the pool. It stops at `MAX_ROWS` rows or
when the pool is empty. Every `CHUNK_SIZE` rows it rewrites everything collected
so far into `new_league_data_<total>.csv` and deletes the file of the previous
chunk.

The model follows the program's structure:

- `json.dfy`: `Json` holds decoded JSON values with Python's truthiness and
  `dict.get`. It also holds the row cells and the decimal text of `str(int)`.
  `Wrappers` holds the `Option` type.
- `columns.dfy`: `Columns` holds the row's columns and the JSON key each one is
  read from. A `Row` groups its cells by kind: match, participant, ladder,
  mastery, last-play time and final statistics.
- `retry.dfy`: `Retry` models `do_request` in three forms.
  - `Attempts` is the recursive definition.
  - `Answers`/`Settles` give it as a trace.
  - `RequestLoop` is an iterative method.
  - The `Client` class holds the server, the attempts sent and the sleeps
    requested. The server is a function from the attempt number and the
    resource to an outcome.
- `caches.dfy`: `Caches` holds the four module-level caches as a class with one
  `map` field each, plus the loops that build the rank and mastery
  dictionaries. Its invariant `Valid` says that every cached rank or mastery
  dictionary is one those loops build from some API list.
- `finalstats.dfy`: `FinalStats` models `get_final_champion_stats`.
- `flatten.dfy`: `Flatten` models `process_match_data`. `FlatRow` is a
  participant's row. `ProcessMatchData` is the loop over the participants,
  proved to produce exactly those rows from what the caches hold.
- `chunks.dfy`: `Chunks` models `save_chunk_to_csv` on a `Disk` class whose
  `files` field is the set of chunk numbers present. It also gives the state of
  the directory after the saves of a whole crawl.
- `crawl.dfy`: `Crawl` models `get_match_history` and `main`. The per-match and
  per-row loops are split into methods. A ghost list records the match id each
  collected row came from. It shows that every row comes from a processed match,
  that the rows of one match form a single block, and that a match gives at
  most one row per participant.

A participant from a match without a timeline, or from a timeline without
frames, gets no `final_*` keys at all. `get_final_champion_stats` returns `{}`
there (riot_api_client.py:206-212), so no null `final_*` columns are added.
`FinalStatsShape` and `FramelessRowsLackFinalKeys` state this.

## Model

| member | source | states |
|---|---|---|
| Json.Trunc | riot_api_client.py:271-272 | `int(x)` truncates toward zero: the result is within one of x, on the side of zero |
| Json.DecimalRoundTrip | riot_api_client.py:216 | `str` of an integer parses back to the same integer |
| Json.DecimalStringInjective | riot_api_client.py:216 | distinct integers have distinct `str` texts |
| Retry.Classify | riot_api_client.py:64-89 | the verdict on one attempt's outcome: the body, a final None, or a retry after a delay; `ClassifyCases` states its cases |
| Retry.Attempts | riot_api_client.py:53-89 | `do_request` as written, with `retries` and `max_retries`: give up once `retries > max_retries`, else classify the attempt and recurse with the default limit; `AnswersIsRequest` and `RetryBound` state what it returns |
| Retry.Request | riot_api_client.py:53-89 | a top-level call, with `retries` 0 |
| Retry.ClassifyCases | riot_api_client.py:64-89 | only a 200 answers with a body, and it answers with that body. An exception (2 s), a 429 (its Retry-After, default 1 s) and a 500/502/503/504 (5 s) are retried. Every other status is a final None |
| Retry.MaxRetriesOnlyGatesFirstAttempt | riot_api_client.py:60-85 | any non-negative `max_retries` behaves as the default 5, because the retries recurse without passing it on |
| Retry.AnswersIsRequest | riot_api_client.py:53-89 | the recursive definition is exactly the trace: retried attempts, each followed by its sleep, then either a settling attempt within the budget or None once the budget is spent |
| Retry.RetryBound | riot_api_client.py:60-62 | a request makes at most six attempts (none when `max_retries` < 0); a request whose every attempt was retried made all six |
| Retry.ThrottledThenOk | riot_api_client.py:77-81 | a 429 with Retry-After w followed by a 200 gives the body after exactly one sleep of w and two attempts |
| Retry.RequestLoop | riot_api_client.py:53-89 | the iterative retry loop returns the body, sleeps and attempt count the trace specification admits |
| Retry.Client.constructor | riot_api_client.py:405 | a fresh session against a given server: no attempts sent and no sleeps yet |
| Retry.Client.DoRequest | riot_api_client.py:53-89 | the client's answer is the request's body; the attempts are counted and the sleeps are appended to the client's history |
| Caches.BlankRank | riot_api_client.py:137-142 | the ten solo/flex columns, all None |
| Caches.RankStep | riot_api_client.py:145-158 | one ladder entry: a solo or flex entry overwrites that ladder's five columns; any other queue changes nothing |
| Caches.RankFold | riot_api_client.py:137-158 | the rank dictionary after the loop has visited a prefix of the entries; `RankFoldIsRankInfo` states its meaning |
| Caches.RankFoldIsRankInfo | riot_api_client.py:137-158 | the rank loop yields exactly the ten solo/flex columns; each ladder is read from the last entry of its queue type, or None when there is none |
| Caches.BuildRankInfo | riot_api_client.py:137-158 | the loop over the ladder entries builds the rank dictionary described by `IsRankInfo` |
| Caches.MasteryEntry | riot_api_client.py:182-189 | the six mastery columns read from one item of the mastery list |
| Caches.BlankMastery | riot_api_client.py:165-172 | the six mastery columns, all None, returned for a falsy puuid, a None champion or an absent champion |
| Caches.LastWithChampionFound | riot_api_client.py:180-189 | a champion has a mastery entry exactly when some item of the list names it |
| Caches.BuildMasteryMap | riot_api_client.py:177-190 | one entry per champion id that occurs, holding the six columns of its last item |
| Caches.Caches.constructor | riot_api_client.py:45-48 | the four caches start empty, so the class invariant holds: every cached rank or mastery dictionary is one the loops build from an API list |
| Caches.MasteryEntryKeys | riot_api_client.py:180-189 | an entry of a per-champion mastery dictionary has exactly the six mastery columns |
| Caches.Caches.GetMatchDetails | riot_api_client.py:102-112 | a cached id answers from the cache with no request. Otherwise one request is made: the cache gains the payload only on success, and the result is the payload or None |
| Caches.Caches.GetMatchTimeline | riot_api_client.py:114-124 | the same caching discipline for timelines |
| Caches.Caches.GetSummonerRank | riot_api_client.py:126-161 | a falsy id or platform gives `{}` and touches nothing. Otherwise the result, from the cache or from a fresh request, is the rank dictionary of some ladder list: exactly the ten solo/flex columns, each from the last entry of its queue or None. A hit makes no request. A miss builds the dictionary from the fetched list and caches it even when the request failed. The class invariant is kept |
| Caches.Caches.GetChampionMastery | riot_api_client.py:163-199 | the result always has exactly the six mastery columns. A falsy puuid or a None champion gives the blank columns. Otherwise the player's champion map is fetched at most once and cached, even when empty; the cached map is the one some mastery list yields. The result is the champion's entry, or the blank columns. The class invariant is kept |
| FinalStats.ChampionStats | riot_api_client.py:214-218 | the `championStats` object of the participant's entry in the last frame, `{}` where any level is missing |
| FinalStats.FinalStatsOf | riot_api_client.py:204-229 | the final-statistics dictionary; `FinalStatsShape` states its meaning |
| FinalStats.FrameKeyInjective | riot_api_client.py:216-217 | distinct integer participant ids read distinct frame entries |
| FinalStats.AllStatsListed | riot_api_client.py:220-226 | every final statistic is in the visited list |
| FinalStats.ListedKeys | riot_api_client.py:220-228 | after visiting some names, exactly those `final_*` keys are set, each to the statistic's value |
| FinalStats.ListedAll | riot_api_client.py:220-228 | visiting the whole list sets all 25 statistics |
| FinalStats.FinalStatsShape | riot_api_client.py:204-229 | no timeline or no frames gives no keys; otherwise all 25 keys, each read from the last frame's entry for the participant |
| FinalStats.MissingStatIsNone | riot_api_client.py:227 | a statistic missing from the frame is present with value None |
| FinalStats.ReadStats | riot_api_client.py:220-228 | the loop writes one key per listed name, with that statistic's value |
| FinalStats.GetFinalChampionStats | riot_api_client.py:204-229 | returns the final-statistics dictionary `FinalStatsShape` describes |
| Flatten.PuuidsOf | riot_api_client.py:258-261 | the puuids the participant loop adds to the pool; `PuuidsOfMembers` states which |
| Flatten.Truncated | riot_api_client.py:271-272 | a float becomes `int()` of it; any other value is kept |
| Flatten.LastPlay | riot_api_client.py:270-272 | the `champion_mastery_lastPlayTime` written to the row; `LastPlayTimeNormalised` states its meaning |
| Flatten.FlatRow | riot_api_client.py:283-360 | the row of one participant: `row_data` with the final statistics merged in; `RowKeys`, `PlayerColumns`, `RankColumns` and the lemmas after them state its columns |
| Flatten.PuuidsOfMembers | riot_api_client.py:258-261 | the pool receives a value exactly when it is the truthy puuid of some participant |
| Flatten.RowKeys | riot_api_client.py:283-360 | every row has every match, participant, ladder and mastery column; it has a `final_*` column exactly when the final statistics supply it |
| Flatten.PlayerColumns | riot_api_client.py:294-339 | each participant column holds the participant's value for its key, or None when the key is missing |
| Flatten.RankColumns | riot_api_client.py:341-350 | each ladder column is the standing of the last ladder entry of its queue, or None |
| Flatten.GameStartPresence | riot_api_client.py:250-255 | `game_start_utc` is present exactly when `gameStartTimestamp` is truthy |
| Flatten.LastPlayTimeNormalised | riot_api_client.py:270-279 | a float last-play time is truncated to an int and never written as a float; its `_utc` column is present exactly when the written value is truthy |
| Flatten.SubMillisecondLastPlay | riot_api_client.py:270-279 | a last-play time of 0.5 is written as 0 and has no `_utc` text: the check runs on the truncated value |
| Flatten.SharedGameColumns | riot_api_client.py:242-292 | all rows of one match carry the same match columns |
| Flatten.UnrankedRow | riot_api_client.py:341-358 | a player with no rank dictionary and blank mastery has None in every ladder and mastery column and no last-play text |
| Flatten.FinalColumnsPresence | riot_api_client.py:281 | a row has a given `final_*` column exactly when the timeline has frames |
| Flatten.FramelessRowsLackFinalKeys | riot_api_client.py:360 | rows from a timeline with frames carry all final keys, while rows from a frameless timeline carry none, so the rows of one crawl need not share one key set |
| Flatten.RankFor | riot_api_client.py:263-264 | the rank lookup only adds cache entries; it leaves the participant's entry cached and returns what the cache holds for it |
| Flatten.MasteryFor | riot_api_client.py:266-267 | the mastery lookup only adds cache entries; it leaves the player's map cached and returns the champion's entry from it |
| Flatten.JoinParticipant | riot_api_client.py:263-267 | the lookups for one more participant keep every earlier participant's rank and mastery equal to what the caches hold |
| Flatten.AppendRow | riot_api_client.py:283-361 | the rows so far are the rows of the participants so far, built from their given rank and mastery |
| Flatten.AddPuuid | riot_api_client.py:259-261 | the pool so far is the original pool plus the truthy puuids of the participants so far |
| Flatten.AddParticipant | riot_api_client.py:258-361 | one loop step keeps the rows equal to the participants' rows and only adds cache entries |
| Flatten.MatchRows | riot_api_client.py:257-363 | the rows of a match: one per participant, in participant order, each the `FlatRow` of that participant from what the caches hold |
| Flatten.MatchRowLadders | riot_api_client.py:263-264 | when the rank cache holds only dictionaries built from ladder lists, as the class invariant ensures, every row of a match has the ladder cells of some ladder list: the summoner's own, or the empty list when the lookup was skipped |
| Flatten.ProcessMatchData | riot_api_client.py:234-363 | a falsy match gives no rows and changes nothing. Otherwise the rows are the match's `MatchRows`: one per participant, in order, each built from the match, the participant, the cached rank and mastery and the final statistics. The pool gains exactly the truthy puuids, and the caches only grow. The class invariant of the caches is kept, so `MatchRowLadders` applies to the rows |
| Chunks.Disk.constructor | riot_api_client.py:377-391 | a working directory holding a given set of chunk files |
| Chunks.Rotate | riot_api_client.py:377-391 | the directory after one save of `total` rows; `RotateTouchesTwoFiles` states its meaning |
| Chunks.RotateTouchesTwoFiles | riot_api_client.py:377-391 | a save writes its own file and removes the file one chunk earlier when that number is positive; no other file changes |
| Chunks.SaveChunkToCsv | riot_api_client.py:368-392 | no rows changes nothing; otherwise the directory is rotated |
| Chunks.Cadence | riot_api_client.py:428-437 | the directory after the saves main makes at CHUNK_SIZE, 2 * CHUNK_SIZE, ... rows; `CadenceKeepsLatest` states its meaning |
| Chunks.CadenceStep | riot_api_client.py:430-437 | counting one row triggers a save exactly when the total reaches a multiple of CHUNK_SIZE |
| Chunks.CadenceKeepsLatest | riot_api_client.py:428-437 | after the periodic saves only the latest multiple-of-CHUNK_SIZE file remains of the files they wrote; other files are untouched |
| Chunks.Flushed | riot_api_client.py:428-448 | the directory at the end of a crawl: the periodic saves, then the final save of a partial chunk; `FlushedFromEmpty` states its meaning |
| Chunks.FlushedFromEmpty | riot_api_client.py:446-448 | from an empty directory a crawl ending on a multiple leaves one file. A crawl ending past the first chunk but between multiples leaves two files: the last multiple and the final partial file. The final save's deletion misses the last chunk file |
| Crawl.GetMatchHistory | riot_api_client.py:94-100 | one request for 20 match ids; the parsed body on success, `[]` otherwise |
| Crawl.AppendRows | riot_api_client.py:428-441 | the rows are appended up to MAX_ROWS and the counters follow; the directory is the result of the periodic saves for the new total |
| Crawl.ContiguousBlock | riot_api_client.py:416-429 | appending the rows of a match that is not yet processed keeps each match's rows in one block, and every row from a processed match |
| Crawl.SettledAdd | riot_api_client.py:420-422 | a match whose cached details are truthy may join the processed set |
| Crawl.NewBlockFresh | riot_api_client.py:415-429 | rows appended from matches not processed at the start of the loop keep every row added since then from such a match |
| Crawl.YieldBlock | riot_api_client.py:416-429 | appending at most one row per participant of a match that is not yet processed keeps every match within its participant count |
| Crawl.ProvenanceBlock | riot_api_client.py:416-429 | appending the rows of a new match, at most one per participant, keeps every row from a processed match, one block per match, within its participant count |
| Crawl.WithinYieldGrows | riot_api_client.py:102-112 | the details cache only gaining entries keeps every match within its participant count |
| Crawl.CountInWindow | riot_api_client.py:416-429 | a list whose occurrences of a match id all lie in a window holds it at most the window's length times |
| Crawl.RowsPerMatch | riot_api_client.py:416-429 | the rows recorded as coming from a match number at most its participants, and none come from a match without cached details |
| Crawl.FetchRows | riot_api_client.py:424-427 | the timeline fetch and `process_match_data` for one match: the rows are the match's `MatchRows`, and the pool gains exactly the truthy puuids. The timeline is the cached one when the cache holds it, and None otherwise, when the fetch failed |
| Crawl.CollectRows | riot_api_client.py:428-439 | the rows of one new match are appended up to MAX_ROWS and recorded as coming from it; the counters and the directory follow, and the rows keep their provenance |
| Crawl.TakeMatch | riot_api_client.py:421-441 | a new match with truthy details is marked processed. Its timeline is the cached one, or None when the fetch failed. The appended rows are a prefix of the match's `MatchRows`, as long as MAX_ROWS leaves room for; each is recorded as coming from this match, in one block no longer than its participant list. The pool gains exactly the truthy puuids, and the directory follows the periodic saves |
| Crawl.VisitMatch | riot_api_client.py:416-441 | one pass of the match loop: an id already processed sends no request and changes nothing, neither the client, the caches, the directory nor the crawl state. Otherwise only that match may join the processed set, and every row added comes from it |
| Crawl.CrawlMatches | riot_api_client.py:415-444 | the per-player match loop never exceeds MAX_ROWS and only appends rows. A history whose ids are all processed sends no request and changes nothing. Every new row comes from a match of the history that was not processed before the loop; each match's rows form one block of at most one row per participant. Processed matches have truthy cached details. The processed set and the pool only grow, and the directory follows the periodic saves |
| Crawl.Run | riot_api_client.py:397-448 | the crawl collects at most MAX_ROWS rows and stops early only when the pool is empty. Every row comes from a processed match, and each match's rows form one block of at most one row per participant, so with `RowsPerMatch` no match yields its rows twice. The directory ends as the periodic saves plus the final save of a partial chunk. Every processed match has truthy details. Starting from caches that meet their invariant, as the empty caches of a new process do, the invariant still holds at the end |

## Left out

- HTTP, `aiohttp`, JSON decoding and the `AsyncLimiter` rate limiter are not modelled. The server is a function of the attempt number and the resource, and the client counts its attempts and sleeps instead of sleeping.
- URL building, `HEADERS`, `PLATFORM_MAP` and the Retry-After header text are not modelled. Outcomes carry an already parsed Retry-After.
- Caches.Caches.GetSummonerRank: the cache is keyed by the (platform, summoner) pair rather than the text `"platform:summoner"`. Two different pairs whose texts coincide would share an entry in the source but not in the model.
- Payloads of an unexpected JSON shape are read as `{}` or `[]`. Python would mostly raise and end the run there, for instance KeyError on `match_data["info"]` for a match without `info`. The match-id list is the exception, described below.
- Unhashable keys are not modelled. A truthy list or object used as a puuid, champion id or match id is an ordinary key here. In Python it raises TypeError and ends the run: `puuid_pool.add(p)` (riot_api_client.py:261), `puuid not in champion_mastery_cache` (:174), `mastery_dict[c_id]` (:182), `.get(champion_id, …)` (:192) and `match_id in processed_matches` (:416).
- Caches.Caches.GetSummonerRank: a truthy platform id that is not a string makes `platform_id.upper()` raise AttributeError and end the run (riot_api_client.py:133). The model sends the request, because URL building is not modelled.
- JSON floats are reals. IEEE rounding, and the `/ 1000.0` before the date conversion, are not modelled.
- Json.UtcOf: the ISO-8601 text of a timestamp is not computed; a cell only records the timestamp it is derived from.
- FinalStats.FrameKey: `str()` of a float, list or object participant id is not modelled; such an id reads no frame entry.
- Flatten.ProcessMatchData: the source adds puuids to the caller's set in place. The model returns the enlarged set, which the caller stores back.
- CSV writing is not modelled: the header taken from the first row, the column order, the encoding, and `DictWriter`'s ValueError on a later row with keys outside the header. The directory is reduced to the set of chunk numbers present. `FramelessRowsLackFinalKeys` states the key mismatch that can lead to that error.
- `print` logging and the `__main__` entry point are not modelled.
- Crawl.Run: the order in which `set.pop` picks the next player is left open (any pending player may be chosen).
- Crawl.Run: the contract records the match each row came from, but not each row's contents. `TakeMatch` states those per match, as the match's `MatchRows` built from the caches at that time.
- Crawl.CrawlMatches: a truthy match-id payload that is not a list is read as no ids. The source iterates an object's keys or a string's characters and fetches them as match ids, and it raises TypeError on a truthy number or `true`, which ends the run (riot_api_client.py:411-415).
- Crawl.CrawlMatches: the client counts attempts but does not record which resource each was for. That a processed id is not fetched again is stated per pass (`VisitMatch`) and for a history whose ids are all processed, not over the request log of a whole loop.
- Crawl.Run: for the same reason, the whole crawl states no request log; it states that no match yields rows twice, through the row provenance and `RowsPerMatch`.
- Flatten.FlatRow: a truthy `gameStartTimestamp` or mastery last-play time that is a string, list or object makes `x / 1000.0` raise TypeError (riot_api_client.py:252, 276), and `utcfromtimestamp` raises on a timestamp outside its range; either ends the run. The model writes a cell recording the timestamp instead.
- Python's key equality for dicts and sets is not modelled: `1`, `1.0` and `True` are one key in the caches and in the processed set (riot_api_client.py:103, 174, 182, 192, 416), but `Int(1)`, `Num(1.0)` and `Bool(true)` are distinct values here.

=== FILE: caches.dfy ===
/**
 * The four process-lifetime caches and the lookups that fill them
 * (`get_match_details`, `get_match_timeline`, `get_summoner_rank`,
 * `get_champion_mastery`), with the two loops that turn an API list into the rank
 * dictionary and the per-champion mastery dictionary.
 *
 * The caches do not share one policy: match details and timelines are stored only
 * when the request succeeds, while rank and mastery results are stored whatever
 * the request did, so a failed rank or mastery lookup is never retried.
 */
module Caches {

  import opened Wrappers
  import opened Json
  import opened Columns
  import opened Retry

  /** `big` keeps every entry of `small`, unchanged. */
  ghost predicate Extends<K, V>(small: map<K, V>, big: map<K, V>) {
    forall k :: k in small ==> k in big && big[k] == small[k]
  }

  // ---------------------------------------------------------------------------
  // Rank dictionary

  /** The last entry of the ladder list whose `queueType` names `q`, if any. */
  function LastOfQueue(entries: seq<Value>, q: Queue): Option<Object> {
    if entries == [] then None
    else
      var e := AsObj(entries[|entries| - 1]);
      if Field(e, "queueType") == Str(QueueName(q)) then Some(e)
      else LastOfQueue(entries[..|entries| - 1], q)
  }

  /** A standing read from a ladder entry, None when there is no entry. */
  function StandingOf(entry: Option<Object>, s: Standing): Value {
    match entry
    case None => Null
    case Some(e) => Field(e, StandingKey(s))
  }

  /** `info` is the rank dictionary of a summoner whose ladder list is `entries`:
      exactly the ten solo/flex columns, each ladder's five taken from the LAST
      entry of that queue type and None when there is none; other queues are
      ignored. */
  ghost predicate IsRankInfo(entries: seq<Value>, info: Info) {
    && (forall c :: c in info <==> c.Ranked?)
    && (forall q, s :: info[Ranked(q, s)] == StandingOf(LastOfQueue(entries, q), s))
  }

  /** The ten rank columns, all None. */
  function BlankRank(): Info {
    map q: Queue, s: Standing :: Ranked(q, s) := Null
  }

  /** `info` with the five columns of ladder `q` overwritten from `entry`. */
  function FillLadder(info: Info, q: Queue, entry: Object): Info {
    info + map s: Standing :: Ranked(q, s) := Field(entry, StandingKey(s))
  }

  /** The last ladder entry of the list settles the ladder it names. */
  lemma LastOfQueueSnoc(pre: seq<Value>, x: Value, q: Queue)
    ensures LastOfQueue(pre + [x], q) ==
      if Field(AsObj(x), "queueType") == Str(QueueName(q)) then Some(AsObj(x)) else LastOfQueue(pre, q)
  {
    assert (pre + [x])[..|pre + [x]| - 1] == pre;
  }

  /** Before any entry, every rank column is None. */
  lemma BlankRankInfo()
    ensures IsRankInfo([], BlankRank())
  {
  }

  /** An entry of ladder `q` overwrites that ladder's five columns. */
  lemma FillStep(pre: seq<Value>, x: Value, info: Info, q: Queue)
    requires IsRankInfo(pre, info)
    requires Field(AsObj(x), "queueType") == Str(QueueName(q))
    ensures IsRankInfo(pre + [x], FillLadder(info, q, AsObj(x)))
  {
    var e := AsObj(x);
    var next := FillLadder(info, q, e);
    forall q', s
      ensures next[Ranked(q', s)] == StandingOf(LastOfQueue(pre + [x], q'), s)
    {
      LastOfQueueSnoc(pre, x, q');
      if q' != q {
        assert QueueName(q') != QueueName(q);
      }
    }
  }

  /** An entry of any other queue changes nothing. */
  lemma SkipStep(pre: seq<Value>, x: Value, info: Info)
    requires IsRankInfo(pre, info)
    requires Field(AsObj(x), "queueType") != Str(QueueName(Solo))
    requires Field(AsObj(x), "queueType") != Str(QueueName(Flex))
    ensures IsRankInfo(pre + [x], info)
  {
    LastOfQueueSnoc(pre, x, Solo);
    LastOfQueueSnoc(pre, x, Flex);
  }

  /** One pass of get_summoner_rank's loop: a solo or flex entry overwrites its
      ladder, any other entry is skipped. */
  function RankStep(info: Info, item: Value): Info {
    var entry := AsObj(item);
    var queueType := Field(entry, "queueType");
    if queueType == Str(QueueName(Solo)) then FillLadder(info, Solo, entry)
    else if queueType == Str(QueueName(Flex)) then FillLadder(info, Flex, entry)
    else info
  }

  /** The rank dictionary after the loop has visited `entries`. */
  function RankFold(entries: seq<Value>): Info {
    if entries == [] then BlankRank()
    else RankStep(RankFold(entries[..|entries| - 1]), entries[|entries| - 1])
  }

  /** The loop computes the rank dictionary its callers rely on. */
  lemma {:induction false} RankFoldIsRankInfo(entries: seq<Value>)
    ensures IsRankInfo(entries, RankFold(entries))
  {
    if entries == [] {
      BlankRankInfo();
    } else {
      var pre := entries[..|entries| - 1];
      var x := entries[|entries| - 1];
      assert entries == pre + [x];
      RankFoldIsRankInfo(pre);
      var queueType := Field(AsObj(x), "queueType");
      if queueType == Str(QueueName(Solo)) {
        FillStep(pre, x, RankFold(pre), Solo);
      } else if queueType == Str(QueueName(Flex)) {
        FillStep(pre, x, RankFold(pre), Flex);
      } else {
        SkipStep(pre, x, RankFold(pre));
      }
    }
  }

  /** The loop of get_summoner_rank over the ladder entries of a successful fetch. */
  method BuildRankInfo(entries: seq<Value>) returns (info: Info)
    ensures info == RankFold(entries)
    ensures IsRankInfo(entries, info)
  {
    info := BlankRank();
    var i := 0;
    while i < |entries|
      invariant 0 <= i <= |entries|
      invariant info == RankFold(entries[..i])
    {
      assert entries[..i + 1][..i] == entries[..i];
      var entry := AsObj(entries[i]);
      var queueType := Field(entry, "queueType");
      if queueType == Str(QueueName(Solo)) {
        info := FillLadder(info, Solo, entry);
      } else if queueType == Str(QueueName(Flex)) {
        info := FillLadder(info, Flex, entry);
      }
      i := i + 1;
    }
    assert entries[..i] == entries;
    RankFoldIsRankInfo(entries);
  }

  // ---------------------------------------------------------------------------
  // Mastery dictionary

  /** The `championId` of an item of the mastery list (None when absent). */
  function ChampionOf(item: Value): Value {
    Field(AsObj(item), "championId")
  }

  /** The last item of the mastery list for champion `k`, if any. */
  function LastWithChampion(items: seq<Value>, k: Value): Option<Object> {
    if items == [] then None
    else if ChampionOf(items[|items| - 1]) == k then Some(AsObj(items[|items| - 1]))
    else LastWithChampion(items[..|items| - 1], k)
  }

  /** The six mastery columns of one item of the mastery list. */
  function MasteryEntry(item: Object): Info {
    map m: MasteryField :: Mastery(m) := Field(item, MasteryKey(m))
  }

  /** The six mastery columns, all None. */
  function BlankMastery(): Info {
    map m: MasteryField :: Mastery(m) := Null
  }

  /** `m` is the per-champion dictionary built from the mastery list `items`: one
      key per champion id that occurs, bound to the columns of its LAST item. */
  ghost predicate IsMasteryMap(items: seq<Value>, m: map<Value, Info>) {
    && (forall k :: k in m <==> LastWithChampion(items, k).Some?)
    && (forall k :: k in m ==> m[k] == MasteryEntry(LastWithChampion(items, k).value))
  }

  /** A champion has an entry exactly when some item of the list names it. */
  lemma {:induction false} LastWithChampionFound(items: seq<Value>, k: Value)
    ensures LastWithChampion(items, k).Some? <==> exists i :: 0 <= i < |items| && ChampionOf(items[i]) == k
  {
    if items != [] {
      var init := items[..|items| - 1];
      LastWithChampionFound(init, k);
      if ChampionOf(items[|items| - 1]) != k {
        if exists i :: 0 <= i < |items| && ChampionOf(items[i]) == k {
          var i :| 0 <= i < |items| && ChampionOf(items[i]) == k;
          assert i < |items| - 1 && init[i] == items[i];
        }
      }
    }
  }

  /** The loop of get_champion_mastery over the mastery list of a successful fetch. */
  method BuildMasteryMap(items: seq<Value>) returns (m: map<Value, Info>)
    ensures IsMasteryMap(items, m)
  {
    m := map[];
    var i := 0;
    while i < |items|
      invariant 0 <= i <= |items|
      invariant IsMasteryMap(items[..i], m)
    {
      assert items[..i + 1][..i] == items[..i];
      m := m[ChampionOf(items[i]) := MasteryEntry(AsObj(items[i]))];
      i := i + 1;
    }
    assert items[..i] == items;
  }

  /** The list carried by a reply, or the empty list when the request failed. */
  function BodyList(body: Option<Value>): seq<Value> {
    match body
    case Some(v) => AsArr(v)
    case None => []
  }

  // ---------------------------------------------------------------------------
  // The caches

  /** Every cached rank dictionary is the one some ladder list yields. */
  ghost predicate RanksFromLadders(ranks: map<(Value, Value), Info>) {
    forall key :: key in ranks ==> exists entries :: IsRankInfo(entries, ranks[key])
  }

  /** Every cached per-champion dictionary is the one some mastery list yields. */
  ghost predicate MasteriesFromLists(masteries: map<Value, map<Value, Info>>) {
    forall p :: p in masteries ==> exists items :: IsMasteryMap(items, masteries[p])
  }

  /** The six mastery columns are exactly the keys of a champion's entry. */
  lemma MasteryEntryKeys(items: seq<Value>, m: map<Value, Info>, k: Value)
    requires IsMasteryMap(items, m) && k in m
    ensures forall c :: c in m[k] <==> c.Mastery?
  {
  }

  class Caches {
    /** match id -> match payload; filled only by successful fetches. */
    var details: map<Value, Value>
    /** match id -> timeline payload; filled only by successful fetches. */
    var timelines: map<Value, Value>
    /** (platform, summoner id) -> rank dictionary; filled by every fetch. */
    var ranks: map<(Value, Value), Info>
    /** puuid -> champion id -> mastery dictionary; filled by every fetch. */
    var masteries: map<Value, map<Value, Info>>

    /** The rank and mastery caches hold only what the two loops build. */
    ghost predicate Valid()
      reads this`ranks, this`masteries
    {
      RanksFromLadders(ranks) && MasteriesFromLists(masteries)
    }

    constructor ()
      ensures details == map[] && timelines == map[] && ranks == map[] && masteries == map[]
      ensures Valid()
    {
      details := map[];
      timelines := map[];
      ranks := map[];
      masteries := map[];
    }

    /** get_match_details: a cached payload is returned without a request; otherwise
        the payload of a successful request is stored and returned, and a failed
        request stores nothing and returns None. */
    method GetMatchDetails(client: Client, matchId: Value) returns (data: Value)
      modifies this`details, client
      ensures matchId in old(details) ==>
        data == old(details)[matchId] && details == old(details) &&
        client.sent == old(client.sent) && client.slept == old(client.slept)
      ensures matchId !in old(details) ==>
        var r := Request(client.server, MatchDetail(matchId), old(client.sent), DEFAULT_MAX_RETRIES);
        && client.Issued(old(client.sent), old(client.slept), r)
        && data == r.body.GetOr(Null)
        && details == (if r.body.Some? then old(details)[matchId := data] else old(details))
    {
      if matchId in details {
        return details[matchId];
      }
      var resp := client.DoRequest(MatchDetail(matchId), DEFAULT_MAX_RETRIES);
      if resp.Some? {
        data := resp.value;
        details := details[matchId := data];
        return;
      }
      data := Null;
    }

    /** get_match_timeline: the same policy as get_match_details, on its own cache. */
    method GetMatchTimeline(client: Client, matchId: Value) returns (data: Value)
      modifies this`timelines, client
      ensures matchId in old(timelines) ==>
        data == old(timelines)[matchId] && timelines == old(timelines) &&
        client.sent == old(client.sent) && client.slept == old(client.slept)
      ensures matchId !in old(timelines) ==>
        var r := Request(client.server, MatchTimeline(matchId), old(client.sent), DEFAULT_MAX_RETRIES);
        && client.Issued(old(client.sent), old(client.slept), r)
        && data == r.body.GetOr(Null)
        && timelines == (if r.body.Some? then old(timelines)[matchId := data] else old(timelines))
    {
      if matchId in timelines {
        return timelines[matchId];
      }
      var resp := client.DoRequest(MatchTimeline(matchId), DEFAULT_MAX_RETRIES);
      if resp.Some? {
        data := resp.value;
        timelines := timelines[matchId := data];
        return;
      }
      data := Null;
    }

    /** get_summoner_rank: `{}` and no request when the summoner id or the platform
        is missing; otherwise the cached dictionary, or a fresh one (all None when
        the request failed) which is stored either way. */
    method GetSummonerRank(client: Client, summonerId: Value, platformId: Value) returns (info: Info)
      requires Valid()
      modifies this`ranks, client
      ensures Valid()
      ensures Truthy(summonerId) && Truthy(platformId) ==> exists entries :: IsRankInfo(entries, info)
      ensures !Truthy(summonerId) || !Truthy(platformId) ==>
        info == map[] && ranks == old(ranks) &&
        client.sent == old(client.sent) && client.slept == old(client.slept)
      ensures Truthy(summonerId) && Truthy(platformId) ==>
        var key := (platformId, summonerId);
        && ranks == old(ranks)[key := info]
        && (key in old(ranks) ==>
              info == old(ranks)[key] && client.sent == old(client.sent) && client.slept == old(client.slept))
        && (key !in old(ranks) ==>
              var r := Request(client.server, LeagueEntries(platformId, summonerId), old(client.sent), DEFAULT_MAX_RETRIES);
              client.Issued(old(client.sent), old(client.slept), r) && IsRankInfo(BodyList(r.body), info))
    {
      if !Truthy(summonerId) || !Truthy(platformId) {
        return map[];
      }
      var key := (platformId, summonerId);
      if key in ranks {
        return ranks[key];
      }
      var resp := client.DoRequest(LeagueEntries(platformId, summonerId), DEFAULT_MAX_RETRIES);
      info := BuildRankInfo(BodyList(resp));
      ranks := ranks[key := info];
      assert ranks[key] == info;
    }

    /** get_champion_mastery: six None columns and no request when the puuid is
        missing or the champion id is None; otherwise at most one request per puuid,
        whose per-champion dictionary is stored even when empty, and a champion
        absent from it reads as six None columns. */
    method GetChampionMastery(client: Client, puuid: Value, championId: Value) returns (data: Info)
      requires Valid()
      modifies this`masteries, client
      ensures Valid()
      ensures forall c :: c in data <==> c.Mastery?
      ensures !Truthy(puuid) || championId == Null ==>
        data == BlankMastery() && masteries == old(masteries) &&
        client.sent == old(client.sent) && client.slept == old(client.slept)
      ensures Truthy(puuid) && championId != Null ==>
        && puuid in masteries
        && masteries == old(masteries)[puuid := masteries[puuid]]
        && data == (if championId in masteries[puuid] then masteries[puuid][championId] else BlankMastery())
        && (puuid in old(masteries) ==>
              masteries == old(masteries) && client.sent == old(client.sent) && client.slept == old(client.slept))
        && (puuid !in old(masteries) ==>
              var r := Request(client.server, Masteries(puuid), old(client.sent), DEFAULT_MAX_RETRIES);
              client.Issued(old(client.sent), old(client.slept), r) && IsMasteryMap(BodyList(r.body), masteries[puuid]))
      ensures Truthy(puuid) && championId != Null ==> exists items :: IsMasteryMap(items, masteries[puuid])
    {
      if !Truthy(puuid) || championId == Null {
        return BlankMastery();
      }
      if puuid !in masteries {
        var resp := client.DoRequest(Masteries(puuid), DEFAULT_MAX_RETRIES);
        var byChampion := BuildMasteryMap(BodyList(resp));
        masteries := masteries[puuid := byChampion];
        assert masteries[puuid] == byChampion;
      }
      var byChampion := masteries[puuid];
      ghost var items :| IsMasteryMap(items, byChampion);
      if championId in byChampion {
        MasteryEntryKeys(items, byChampion, championId);
      }
      data := if championId in byChampion then byChampion[championId] else BlankMastery();
    }
  }
}

=== FILE: chunks.dfy ===
/**
 * `save_chunk_to_csv`: the crawler rewrites all rows collected so far into the
 * file `new_league_data_<total>.csv` and deletes the file written one chunk
 * earlier.  The directory is reduced to the set of numbers `<n>` of the files
 * `new_league_data_<n>.csv` present in it.
 */
module Chunks {

  import opened Columns

  /** Every how many rows a new file is written. */
  const CHUNK_SIZE: nat := 50
  /** How many rows the crawler collects at most. */
  const MAX_ROWS: nat := 200000

  /** The working directory, as the numbers of the chunk files it holds. */
  class Disk {
    var files: set<int>

    constructor (files0: set<int>)
      ensures files == files0
    {
      files := files0;
    }
  }

  /** The directory after a save of `total` rows: file `total` is (re)written and
      file `total - CHUNK_SIZE` is removed when that number is positive (removing
      a file that is not there changes nothing). */
  function Rotate(files: set<int>, total: int): set<int> {
    var written := files + {total};
    if total - CHUNK_SIZE > 0 then written - {total - CHUNK_SIZE} else written
  }

  /** A save creates its own file, removes the previous chunk's file, and touches
      no other file. */
  lemma RotateTouchesTwoFiles(files: set<int>, total: int, n: int)
    ensures total in Rotate(files, total)
    ensures total - CHUNK_SIZE > 0 ==> total - CHUNK_SIZE !in Rotate(files, total)
    ensures n != total && n != total - CHUNK_SIZE ==> (n in Rotate(files, total) <==> n in files)
    ensures total - CHUNK_SIZE <= 0 ==> files <= Rotate(files, total)
  {
  }

  /** save_chunk_to_csv: nothing for an empty row list; otherwise the rotation. */
  method SaveChunkToCsv(disk: Disk, allData: seq<Row>, totalRows: int)
    modifies disk
    ensures allData == [] ==> disk.files == old(disk.files)
    ensures allData != [] ==> disk.files == Rotate(old(disk.files), totalRows)
  {
    if allData == [] {
      return;
    }
    disk.files := disk.files + {totalRows};
    var prevCount := totalRows - CHUNK_SIZE;
    if prevCount > 0 {
      if prevCount in disk.files {
        disk.files := disk.files - {prevCount};
      }
    }
  }

  /** The directory after the saves the crawl loop makes every CHUNK_SIZE rows,
      at totals CHUNK_SIZE, 2 * CHUNK_SIZE, ..., k * CHUNK_SIZE. */
  function Cadence(files: set<int>, k: nat): set<int> {
    if k == 0 then files else Rotate(Cadence(files, k - 1), k * CHUNK_SIZE)
  }

  /** Counting one more row either completes a chunk, which the crawl loop saves,
      or leaves the cadence saves as they were. */
  lemma CadenceStep(files: set<int>, total: nat)
    requires total > 0
    ensures total % CHUNK_SIZE == 0 ==>
      Cadence(files, total / CHUNK_SIZE) == Rotate(Cadence(files, (total - 1) / CHUNK_SIZE), total)
    ensures total % CHUNK_SIZE != 0 ==> Cadence(files, total / CHUNK_SIZE) == Cadence(files, (total - 1) / CHUNK_SIZE)
  {
    if total % CHUNK_SIZE == 0 {
      assert (total - 1) / CHUNK_SIZE == total / CHUNK_SIZE - 1;
      assert total / CHUNK_SIZE * CHUNK_SIZE == total;
    } else {
      assert (total - 1) / CHUNK_SIZE == total / CHUNK_SIZE;
    }
  }

  /** A positive multiple of CHUNK_SIZE below `(k + 1) * CHUNK_SIZE` is one below
      `k * CHUNK_SIZE` or `k * CHUNK_SIZE` itself. */
  lemma MultiplesBelow(n: int, k: nat)
    requires 0 < n < (k + 1) * CHUNK_SIZE && n % CHUNK_SIZE == 0
    ensures n < k * CHUNK_SIZE || (k > 0 && n == k * CHUNK_SIZE)
  {
    var q := n / CHUNK_SIZE;
    assert n == q * CHUNK_SIZE;
  }

  /** After `k` cadence saves the directory holds the latest multiple
      `k * CHUNK_SIZE` and the files it held before, less every earlier positive
      multiple of CHUNK_SIZE: only the latest chunk file remains. */
  lemma {:induction false} CadenceKeepsLatest(files: set<int>, k: nat, n: int)
    ensures n in Cadence(files, k) <==>
      (k > 0 && n == k * CHUNK_SIZE) || (n in files && !(0 < n < k * CHUNK_SIZE && n % CHUNK_SIZE == 0))
  {
    if k > 0 {
      CadenceKeepsLatest(files, k - 1, n);
      if 0 < n < k * CHUNK_SIZE && n % CHUNK_SIZE == 0 {
        MultiplesBelow(n, k - 1);
      }
      assert (k - 1) * CHUNK_SIZE == k * CHUNK_SIZE - CHUNK_SIZE;
    }
  }

  /** The directory at the end of a crawl that collected `total` rows: the cadence
      saves, then the final save when rows are left over since the last one. */
  function Flushed(files: set<int>, total: nat): set<int> {
    var saved := Cadence(files, total / CHUNK_SIZE);
    if total > 0 && total % CHUNK_SIZE != 0 then Rotate(saved, total) else saved
  }

  /** From an empty directory, a crawl ending on a multiple of CHUNK_SIZE leaves
      exactly its last file; one ending between multiples leaves its final partial
      file and, beside it, the last multiple-of-CHUNK_SIZE file, since the final
      save removes `total - CHUNK_SIZE`, which is not a chunk file. */
  lemma FlushedFromEmpty(total: nat)
    ensures total == 0 ==> Flushed({}, total) == {}
    ensures total > 0 && total % CHUNK_SIZE == 0 ==> Flushed({}, total) == {total}
    ensures 0 < total < CHUNK_SIZE ==> Flushed({}, total) == {total}
    ensures total > CHUNK_SIZE && total % CHUNK_SIZE != 0 ==>
      Flushed({}, total) == {total / CHUNK_SIZE * CHUNK_SIZE, total}
  {
    var k := total / CHUNK_SIZE;
    var saved := Cadence({}, k);
    forall n
      ensures n in saved <==> k > 0 && n == k * CHUNK_SIZE
    {
      CadenceKeepsLatest({}, k, n);
    }
    if k > 0 && total % CHUNK_SIZE != 0 {
      assert total - CHUNK_SIZE != k * CHUNK_SIZE;
    }
  }
}

=== FILE: columns.dfy ===
/**
 * The column schema of a flattened row.  Each output key of the crawler's row
 * dictionary is a `Column`; a row holds one cell per column it has, and the
 * intermediate rank, mastery and final-stat dictionaries are `Info` maps from
 * columns to JSON values.  Each kind of column knows the payload key it is read from.
 */
module Columns {

  import opened Wrappers
  import opened Json

  /** Match-level columns, read from `match_data["info"]`. */
  datatype GameField =
    | GameId | GameStartUtc | GameDuration | GameMode | GameType
    | GameVersion | MapId | PlatformId | QueueId

  /** Participant columns, copied from one entry of `info["participants"]`. */
  datatype PlayerField =
    | ParticipantId | Puuid | SummonerName | SummonerId | SummonerLevel
    | ChampionId | ChampionName | TeamId | Win
    | IndividualPosition | TeamPosition | Lane | Role
    | Kills | Deaths | Assists | BaronKills | DragonKills | GoldEarned | GoldSpent
    | TotalDamageDealt | TotalDamageDealtToChampions | PhysicalDamageDealtToChampions
    | MagicDamageDealtToChampions | TrueDamageDealtToChampions
    | DamageDealtToObjectives | DamageDealtToTurrets
    | TotalDamageTaken | PhysicalDamageTaken | MagicDamageTaken | TrueDamageTaken
    | TimeCCingOthers | VisionScore | WardsPlaced | WardsKilled | VisionWardsBoughtInGame
    | Item0 | Item1 | Item2 | Item3 | Item4 | Item5 | Item6

  /** The two ranked ladders the crawler reports. */
  datatype Queue = Solo | Flex

  /** The standing kept for each ladder. */
  datatype Standing = Tier | Division | LeaguePoints | Wins | Losses

  /** The per-champion mastery fields. */
  datatype MasteryField =
    | Level | Points | LastPlayTime | PointsSinceLastLevel | PointsUntilNextLevel | TokensEarned

  /** The champion statistics read from the last timeline frame. */
  datatype Stat =
    | AbilityHaste | AbilityPower | Armor | ArmorPen | ArmorPenPercent
    | AttackDamage | AttackSpeed | BonusArmorPenPercent | BonusMagicPenPercent
    | CcReduction | CooldownReduction | Health | HealthMax | HealthRegen
    | Lifesteal | MagicPen | MagicPenPercent | MagicResist | MovementSpeed
    | Omnivamp | PhysicalVamp | Power | PowerMax | PowerRegen | SpellVamp

  datatype Column =
    | Game(game: GameField)
    | Player(player: PlayerField)
    /** `solo_tier`, `flex_lp`, ... */
    | Ranked(queue: Queue, standing: Standing)
    /** `champion_mastery_level`, ... */
    | Mastery(mastery: MasteryField)
    /** `champion_mastery_lastPlayTime_utc` */
    | LastPlayTimeUtc
    /** `final_abilityHaste`, ... */
    | Final(stat: Stat)

  /** One CSV row, its cells grouped by kind of column: every row has every
      match, participant, rank and mastery column, and `finals` holds the
      `final_*` columns it has. */
  datatype Row = Row(
    game: map<GameField, Cell>,
    player: map<PlayerField, Cell>,
    ranked: map<Queue, map<Standing, Cell>>,
    mastery: map<MasteryField, Cell>,
    lastPlayUtc: Cell,
    finals: map<Stat, Cell>)

  /** The cell of column `c` (the dictionary view of a row); None when absent. */
  function CellOf(row: Row, c: Column): Option<Cell> {
    match c
    case Game(g) => if g in row.game then Some(row.game[g]) else None
    case Player(f) => if f in row.player then Some(row.player[f]) else None
    case Ranked(q, s) => if q in row.ranked && s in row.ranked[q] then Some(row.ranked[q][s]) else None
    case Mastery(m) => if m in row.mastery then Some(row.mastery[m]) else None
    case LastPlayTimeUtc => Some(row.lastPlayUtc)
    case Final(s) => if s in row.finals then Some(row.finals[s]) else None
  }

  type Info = map<Column, Value>

  /** `info.get(column)`: a column the dictionary lacks reads as None. */
  function Lookup(info: Info, c: Column): Value {
    if c in info then info[c] else Null
  }

  /** The key of `match_data["info"]` a match-level column is computed from. */
  function GameKey(g: GameField): string {
    match g
    case GameId => "gameId"
    case GameStartUtc => "gameStartTimestamp"
    case GameDuration => "gameDuration"
    case GameMode => "gameMode"
    case GameType => "gameType"
    case GameVersion => "gameVersion"
    case MapId => "mapId"
    case PlatformId => "platformId"
    case QueueId => "queueId"
  }

  /** The participant key a participant column is copied from. */
  function PlayerKey(f: PlayerField): string {
    match f
    case ParticipantId => "participantId"
    case Puuid => "puuid"
    case SummonerName => "summonerName"
    case SummonerId => "summonerId"
    case SummonerLevel => "summonerLevel"
    case ChampionId => "championId"
    case ChampionName => "championName"
    case TeamId => "teamId"
    case Win => "win"
    case IndividualPosition => "individualPosition"
    case TeamPosition => "teamPosition"
    case Lane => "lane"
    case Role => "role"
    case Kills => "kills"
    case Deaths => "deaths"
    case Assists => "assists"
    case BaronKills => "baronKills"
    case DragonKills => "dragonKills"
    case GoldEarned => "goldEarned"
    case GoldSpent => "goldSpent"
    case TotalDamageDealt => "totalDamageDealt"
    case TotalDamageDealtToChampions => "totalDamageDealtToChampions"
    case PhysicalDamageDealtToChampions => "physicalDamageDealtToChampions"
    case MagicDamageDealtToChampions => "magicDamageDealtToChampions"
    case TrueDamageDealtToChampions => "trueDamageDealtToChampions"
    case DamageDealtToObjectives => "damageDealtToObjectives"
    case DamageDealtToTurrets => "damageDealtToTurrets"
    case TotalDamageTaken => "totalDamageTaken"
    case PhysicalDamageTaken => "physicalDamageTaken"
    case MagicDamageTaken => "magicDamageTaken"
    case TrueDamageTaken => "trueDamageTaken"
    case TimeCCingOthers => "timeCCingOthers"
    case VisionScore => "visionScore"
    case WardsPlaced => "wardsPlaced"
    case WardsKilled => "wardsKilled"
    case VisionWardsBoughtInGame => "visionWardsBoughtInGame"
    case Item0 => "item0"
    case Item1 => "item1"
    case Item2 => "item2"
    case Item3 => "item3"
    case Item4 => "item4"
    case Item5 => "item5"
    case Item6 => "item6"
  }

  /** The `queueType` of a ladder entry that fills a ladder's columns. */
  function QueueName(q: Queue): string {
    match q
    case Solo => "RANKED_SOLO_5x5"
    case Flex => "RANKED_FLEX_SR"
  }

  /** The ladder-entry key a standing is copied from. */
  function StandingKey(s: Standing): string {
    match s
    case Tier => "tier"
    case Division => "rank"
    case LeaguePoints => "leaguePoints"
    case Wins => "wins"
    case Losses => "losses"
  }

  /** The mastery-entry key a mastery field is copied from. */
  function MasteryKey(m: MasteryField): string {
    match m
    case Level => "championLevel"
    case Points => "championPoints"
    case LastPlayTime => "lastPlayTime"
    case PointsSinceLastLevel => "championPointsSinceLastLevel"
    case PointsUntilNextLevel => "championPointsUntilNextLevel"
    case TokensEarned => "tokensEarned"
  }

  /** The `championStats` key a final statistic is read from. */
  function StatKey(s: Stat): string {
    match s
    case AbilityHaste => "abilityHaste"
    case AbilityPower => "abilityPower"
    case Armor => "armor"
    case ArmorPen => "armorPen"
    case ArmorPenPercent => "armorPenPercent"
    case AttackDamage => "attackDamage"
    case AttackSpeed => "attackSpeed"
    case BonusArmorPenPercent => "bonusArmorPenPercent"
    case BonusMagicPenPercent => "bonusMagicPenPercent"
    case CcReduction => "ccReduction"
    case CooldownReduction => "cooldownReduction"
    case Health => "health"
    case HealthMax => "healthMax"
    case HealthRegen => "healthRegen"
    case Lifesteal => "lifesteal"
    case MagicPen => "magicPen"
    case MagicPenPercent => "magicPenPercent"
    case MagicResist => "magicResist"
    case MovementSpeed => "movementSpeed"
    case Omnivamp => "omnivamp"
    case PhysicalVamp => "physicalVamp"
    case Power => "power"
    case PowerMax => "powerMax"
    case PowerRegen => "powerRegen"
    case SpellVamp => "spellVamp"
  }

  /** The order in which the crawler visits the final statistics. */
  const STATS: seq<Stat> := [
    AbilityHaste, AbilityPower, Armor, ArmorPen, ArmorPenPercent,
    AttackDamage, AttackSpeed, BonusArmorPenPercent, BonusMagicPenPercent,
    CcReduction, CooldownReduction, Health, HealthMax, HealthRegen,
    Lifesteal, MagicPen, MagicPenPercent, MagicResist, MovementSpeed,
    Omnivamp, PhysicalVamp, Power, PowerMax, PowerRegen, SpellVamp
  ]
}

=== FILE: crawl.dfy ===
/**
 * `main`: the crawl.  Starting from one player, the crawler pops a pending
 * puuid, fetches that player's recent match ids and turns every match it has
 * not processed yet into rows, whose participants join the pending players.  It
 * saves all rows collected so far every CHUNK_SIZE rows, stops at MAX_ROWS rows
 * or when no player is pending, and saves once more if rows are left over.
 */
module Crawl {

  import opened Wrappers
  import opened Json
  import opened Columns
  import opened Retry
  import opened Caches
  import opened Flatten
  import opened Chunks

  /** How many match ids are asked for per player. */
  const MATCH_HISTORY_COUNT: nat := 20

  /** get_match_history: the parsed body of a successful request, `[]` otherwise. */
  method GetMatchHistory(client: Client, puuid: Value) returns (ids: Value)
    modifies client
    ensures var r := Request(client.server, MatchIds(puuid, MATCH_HISTORY_COUNT), old(client.sent), DEFAULT_MAX_RETRIES);
      && client.Issued(old(client.sent), old(client.slept), r)
      && ids == (if r.body.Some? then r.body.value else Arr([]))
  {
    var resp := client.DoRequest(MatchIds(puuid, MATCH_HISTORY_COUNT), DEFAULT_MAX_RETRIES);
    if resp.Some? {
      return resp.value;
    }
    return Arr([]);
  }

  function Min(a: int, b: int): int {
    if a <= b then a else b
  }

  /** The row loop of main for one match: each row is appended and counted, a
      save of everything collected follows every CHUNK_SIZE rows, and the loop
      stops once MAX_ROWS rows are collected. */
  method AppendRows(disk: Disk, allData: seq<Row>, totalRows: nat, rowsSince: nat, newRows: seq<Row>,
                    ghost files0: set<int>)
    returns (allData': seq<Row>, totalRows': nat, rowsSince': nat)
    requires totalRows == |allData| < MAX_ROWS
    requires rowsSince == totalRows % CHUNK_SIZE
    requires disk.files == Cadence(files0, totalRows / CHUNK_SIZE)
    modifies disk
    ensures allData' == allData + newRows[..Min(|newRows|, MAX_ROWS - totalRows)]
    ensures totalRows' == |allData'| <= MAX_ROWS
    ensures rowsSince' == totalRows' % CHUNK_SIZE
    ensures disk.files == Cadence(files0, totalRows' / CHUNK_SIZE)
  {
    allData', totalRows', rowsSince' := allData, totalRows, rowsSince;
    var i := 0;
    while i < |newRows|
      invariant 0 <= i <= |newRows|
      invariant allData' == allData + newRows[..i]
      invariant totalRows' == |allData'| < MAX_ROWS
      invariant rowsSince' == totalRows' % CHUNK_SIZE
      invariant disk.files == Cadence(files0, totalRows' / CHUNK_SIZE)
    {
      allData' := allData' + [newRows[i]];
      totalRows' := totalRows' + 1;
      rowsSince' := rowsSince' + 1;
      CadenceStep(files0, totalRows');
      if rowsSince' >= CHUNK_SIZE {
        SaveChunkToCsv(disk, allData', totalRows');
        rowsSince' := 0;
      }
      assert newRows[..i + 1] == newRows[..i] + [newRows[i]];
      i := i + 1;
      if totalRows' >= MAX_ROWS {
        break;
      }
    }
  }

  /** Every processed match id has a truthy payload in the details cache. */
  ghost predicate Settled(details: map<Value, Value>, processed: set<Value>) {
    forall m :: m in processed ==> m in details && Truthy(details[m])
  }

  /** `origin[i]` is the match id row `i` came from: the rows of one match form a
      single block. */
  ghost predicate Contiguous(origin: seq<Value>) {
    forall i, j, k :: 0 <= i < j < k < |origin| && origin[i] == origin[k] ==> origin[j] == origin[i]
  }

  /** Every row came from a processed match. */
  ghost predicate FromProcessed(origin: seq<Value>, processed: set<Value>) {
    forall i :: 0 <= i < |origin| ==> origin[i] in processed
  }

  /** Two rows from the same match lie fewer rows apart than the match has
      participants, so a match contributes at most one row per participant. */
  ghost predicate WithinYield(origin: seq<Value>, details: map<Value, Value>) {
    forall i, j :: 0 <= i <= j < |origin| && origin[i] == origin[j] ==>
      origin[i] in details && j - i < |Participants(MatchInfo(details[origin[i]]))|
  }

  /** What the crawl records about where its rows came from: every row from a
      processed match, one block per match, no longer than its participant list. */
  ghost predicate Provenance(origin: seq<Value>, processed: set<Value>, details: map<Value, Value>) {
    FromProcessed(origin, processed) && Contiguous(origin) && WithinYield(origin, details)
  }

  /** The rows of a match no earlier row came from extend the blocks by one more,
      and they come from a match processed now. */
  lemma ContiguousBlock(origin: seq<Value>, processed: set<Value>, m: Value, n: nat)
    requires FromProcessed(origin, processed) && Contiguous(origin) && m !in processed
    ensures FromProcessed(origin + seq(n, _ => m), processed + {m})
    ensures Contiguous(origin + seq(n, _ => m))
  {
    var origin' := origin + seq(n, _ => m);
    forall i, j, k | 0 <= i < j < k < |origin'| && origin'[i] == origin'[k]
      ensures origin'[j] == origin'[i]
    {
      if k < |origin| {
        assert origin'[i] == origin[i] && origin'[j] == origin[j] && origin'[k] == origin[k];
      }
    }
  }

  /** Appending at most one row per participant of a match no earlier row came
      from keeps every match within its participant count. */
  lemma YieldBlock(origin: seq<Value>, details: map<Value, Value>, processed: set<Value>, m: Value, n: nat)
    requires WithinYield(origin, details) && FromProcessed(origin, processed) && m !in processed
    requires m in details && n <= |Participants(MatchInfo(details[m]))|
    ensures WithinYield(origin + seq(n, _ => m), details)
  {
    var origin' := origin + seq(n, _ => m);
    forall i, j | 0 <= i <= j < |origin'| && origin'[i] == origin'[j]
      ensures origin'[i] in details && j - i < |Participants(MatchInfo(details[origin'[i]]))|
    {
      if j < |origin| {
        assert origin'[i] == origin[i] && origin'[j] == origin[j];
      }
    }
  }

  /** Appending the rows of a new match, at most one per participant, keeps the
      provenance of the rows once the match is processed. */
  lemma ProvenanceBlock(origin: seq<Value>, processed: set<Value>, details: map<Value, Value>, m: Value, n: nat)
    requires Provenance(origin, processed, details) && m !in processed
    requires m in details && n <= |Participants(MatchInfo(details[m]))|
    ensures Provenance(origin + seq(n, _ => m), processed + {m}, details)
  {
    ContiguousBlock(origin, processed, m, n);
    YieldBlock(origin, details, processed, m, n);
  }

  /** The details cache only gaining entries keeps the bound. */
  lemma WithinYieldGrows(origin: seq<Value>, details: map<Value, Value>, details': map<Value, Value>)
    requires WithinYield(origin, details) && Extends(details, details')
    ensures WithinYield(origin, details')
  {
  }

  /** A sequence whose occurrences of `m` all lie in [lo, hi) holds `m` at most
      hi - lo times. */
  lemma {:induction false} CountInWindow(s: seq<Value>, m: Value, lo: int, hi: int)
    requires forall i :: 0 <= i < |s| && s[i] == m ==> lo <= i < hi
    ensures multiset(s)[m] <= if lo <= hi then hi - lo else 0
    decreases |s|
  {
    if s != [] {
      var s' := s[..|s| - 1];
      assert s == s' + [s[|s| - 1]];
      if s[|s| - 1] == m {
        CountInWindow(s', m, lo, |s| - 1);
      } else {
        CountInWindow(s', m, lo, hi);
      }
    }
  }

  /** Under the bound, the rows recorded as coming from a match are no more than
      its participants, and none come from a match without cached details. */
  lemma {:induction false} RowsPerMatch(origin: seq<Value>, details: map<Value, Value>, m: Value)
    requires WithinYield(origin, details)
    ensures multiset(origin)[m] <= if m in details then |Participants(MatchInfo(details[m]))| else 0
    decreases |origin|
  {
    if origin != [] {
      if origin[0] == m {
        CountInWindow(origin, m, 0, |Participants(MatchInfo(details[m]))|);
      } else {
        var rest := origin[1..];
        assert origin == [origin[0]] + rest;
        forall i, j | 0 <= i <= j < |rest| && rest[i] == rest[j]
          ensures rest[i] in details && j - i < |Participants(MatchInfo(details[rest[i]]))|
        {
          assert rest[i] == origin[i + 1] && rest[j] == origin[j + 1];
        }
        RowsPerMatch(rest, details, m);
      }
    }
  }

  /** A match whose cached details are truthy may join the processed set. */
  lemma SettledAdd(details: map<Value, Value>, processed: set<Value>, m: Value)
    requires Settled(details, processed) && m in details && Truthy(details[m])
    ensures Settled(details, processed + {m})
  {
  }

  /** Rows appended from a match that was not processed at the start keep every
      row added since the start from such a match. */
  lemma NewBlockFresh(origin: seq<Value>, mid: seq<Value>, last: seq<Value>, m: Value, processed: set<Value>)
    requires origin <= mid <= last
    requires forall i :: |origin| <= i < |mid| ==> mid[i] !in processed
    requires forall i :: |mid| <= i < |last| ==> last[i] == m && m !in processed
    ensures forall i :: |origin| <= i < |last| ==> last[i] !in processed
  {
    forall i | |origin| <= i < |last|
      ensures last[i] !in processed
    {
      if i < |mid| {
        assert last[i] == mid[i];
      }
    }
  }

  /** The timeline fetch and process_match_data for one new match: the rows are
      the match's rows built from the caches, the pool gains exactly the truthy
      puuids of its participants, and the timeline is the one the cache holds, if
      it holds one. */
  method FetchRows(client: Client, caches: Caches, matchId: Value, details: Value, pool: set<Value>)
    returns (newRows: seq<Row>, timeline: Value, pool': set<Value>)
    requires Truthy(details)
    requires caches.Valid()
    modifies client, caches`timelines, caches`ranks, caches`masteries
    ensures caches.Valid()
    ensures MatchRows(caches.ranks, caches.masteries, details, timeline, newRows)
    ensures pool' == pool + PuuidsOf(Participants(MatchInfo(details)))
    ensures timeline == if matchId in caches.timelines then caches.timelines[matchId] else Null
    ensures |newRows| == |Participants(MatchInfo(details))| && (newRows == [] ==> pool' == pool)
  {
    timeline := caches.GetMatchTimeline(client, matchId);
    newRows, pool' := ProcessMatchData(client, caches, details, timeline, pool);
    if newRows == [] {
      assert Participants(MatchInfo(details)) == [];
    }
  }

  /** The rows of one new match, at most one per participant, are appended up to
      MAX_ROWS, and each appended row is recorded as coming from that match. */
  method CollectRows(disk: Disk, matchId: Value, newRows: seq<Row>,
                     allData: seq<Row>, totalRows: nat, rowsSince: nat, ghost processed: set<Value>,
                     ghost details: map<Value, Value>, ghost files0: set<int>, ghost origin: seq<Value>)
    returns (allData': seq<Row>, totalRows': nat, rowsSince': nat, ghost origin': seq<Value>)
    requires totalRows == |allData| < MAX_ROWS
    requires rowsSince == totalRows % CHUNK_SIZE
    requires disk.files == Cadence(files0, totalRows / CHUNK_SIZE)
    requires |origin| == |allData| && Provenance(origin, processed, details)
    requires matchId !in processed && matchId in details
    requires |newRows| <= |Participants(MatchInfo(details[matchId]))|
    modifies disk
    ensures allData' == allData + newRows[..Min(|newRows|, MAX_ROWS - totalRows)]
    ensures totalRows' == |allData'| <= MAX_ROWS
    ensures rowsSince' == totalRows' % CHUNK_SIZE
    ensures disk.files == Cadence(files0, totalRows' / CHUNK_SIZE)
    ensures origin' == origin + seq(|allData'| - |allData|, _ => matchId)
    ensures Provenance(origin', processed + {matchId}, details)
  {
    allData', totalRows', rowsSince' := AppendRows(disk, allData, totalRows, rowsSince, newRows, files0);
    ProvenanceBlock(origin, processed, details, matchId, |allData'| - |allData|);
    origin' := origin + seq(|allData'| - |allData|, _ => matchId);
  }

  /** One new match with truthy details: it is marked processed, its timeline is
      fetched, its rows are the ones process_match_data builds for it, and as many
      of them as MAX_ROWS leaves room for are appended.  The pending players gain
      exactly the truthy puuids of its participants. */
  method TakeMatch(client: Client, caches: Caches, disk: Disk, matchId: Value, details: Value,
                   allData: seq<Row>, totalRows: nat, rowsSince: nat, processed: set<Value>, pool: set<Value>,
                   ghost files0: set<int>, ghost origin: seq<Value>)
    returns (allData': seq<Row>, totalRows': nat, rowsSince': nat, processed': set<Value>, pool': set<Value>,
             newRows: seq<Row>, timeline: Value, ghost origin': seq<Value>)
    requires totalRows == |allData| < MAX_ROWS
    requires rowsSince == totalRows % CHUNK_SIZE
    requires disk.files == Cadence(files0, totalRows / CHUNK_SIZE)
    requires |origin| == |allData| && Provenance(origin, processed, caches.details)
    requires matchId !in processed
    requires Settled(caches.details, processed) && matchId in caches.details && caches.details[matchId] == details
    requires Truthy(details)
    requires caches.Valid()
    modifies client, caches`timelines, caches`ranks, caches`masteries, disk
    ensures caches.Valid()
    ensures MatchRows(caches.ranks, caches.masteries, details, timeline, newRows)
    ensures pool' == pool + PuuidsOf(Participants(MatchInfo(details)))
    ensures timeline == if matchId in caches.timelines then caches.timelines[matchId] else Null
    ensures allData' == allData + newRows[..Min(|newRows|, MAX_ROWS - totalRows)]
    ensures totalRows' == |allData'| <= MAX_ROWS
    ensures rowsSince' == totalRows' % CHUNK_SIZE
    ensures disk.files == Cadence(files0, totalRows' / CHUNK_SIZE)
    ensures processed' == processed + {matchId}
    ensures Settled(caches.details, processed')
    ensures origin' == origin + seq(|allData'| - |allData|, _ => matchId)
    ensures Provenance(origin', processed', caches.details)
    ensures totalRows' == totalRows ==> pool' == pool
  {
    ghost var details0 := caches.details;
    SettledAdd(details0, processed, matchId);
    processed' := processed + {matchId};
    newRows, timeline, pool' := FetchRows(client, caches, matchId, details, pool);
    assert caches.details == details0;
    allData', totalRows', rowsSince', origin' :=
      CollectRows(disk, matchId, newRows, allData, totalRows, rowsSince, processed, details0, files0, origin);
    if totalRows' == totalRows {
      assert newRows == [];
    }
  }

  /** One pass of the match loop of main: an id already processed is skipped;
      otherwise its details are fetched and, when truthy, the match is taken.  Any
      row added comes from this match, which was not processed before. */
  method VisitMatch(client: Client, caches: Caches, disk: Disk, matchId: Value,
                    allData: seq<Row>, totalRows: nat, rowsSince: nat, processed: set<Value>, pool: set<Value>,
                    ghost files0: set<int>, ghost origin: seq<Value>)
    returns (allData': seq<Row>, totalRows': nat, rowsSince': nat, processed': set<Value>, pool': set<Value>,
             ghost origin': seq<Value>)
    requires totalRows == |allData| < MAX_ROWS
    requires rowsSince == totalRows % CHUNK_SIZE
    requires disk.files == Cadence(files0, totalRows / CHUNK_SIZE)
    requires Settled(caches.details, processed)
    requires |origin| == |allData| && Provenance(origin, processed, caches.details)
    requires caches.Valid()
    modifies client, caches, disk
    ensures caches.Valid()
    ensures matchId in processed ==>
      && client.sent == old(client.sent) && client.slept == old(client.slept)
      && caches.details == old(caches.details) && caches.timelines == old(caches.timelines)
      && caches.ranks == old(caches.ranks) && caches.masteries == old(caches.masteries)
      && disk.files == old(disk.files)
      && allData' == allData && totalRows' == totalRows && rowsSince' == rowsSince
      && processed' == processed && pool' == pool && origin' == origin
    ensures totalRows' == |allData'| <= MAX_ROWS && allData <= allData'
    ensures rowsSince' == totalRows' % CHUNK_SIZE
    ensures disk.files == Cadence(files0, totalRows' / CHUNK_SIZE)
    ensures Settled(caches.details, processed')
    ensures processed <= processed' <= processed + {matchId} && pool <= pool'
    ensures |origin'| == |allData'| && origin <= origin'
    ensures Provenance(origin', processed', caches.details)
    ensures forall i :: |origin| <= i < |origin'| ==> origin'[i] == matchId && matchId !in processed
    ensures totalRows' == totalRows ==> pool' == pool
  {
    allData', totalRows', rowsSince', processed', pool', origin' := allData, totalRows, rowsSince, processed, pool, origin;
    if matchId !in processed {
      ghost var details0 := caches.details;
      var details := caches.GetMatchDetails(client, matchId);
      WithinYieldGrows(origin, details0, caches.details);
      if Truthy(details) {
        var newRows, timeline;
        allData', totalRows', rowsSince', processed', pool', newRows, timeline, origin' :=
          TakeMatch(client, caches, disk, matchId, details, allData, totalRows, rowsSince, processed, pool,
                    files0, origin);
      }
    }
  }

  /** The match loop of main for one player: match ids already processed are
      skipped; a match whose details are truthy is marked processed, its timeline
      is fetched and its rows are appended; the loop stops at MAX_ROWS rows.  Rows
      are only appended, and every new row comes from a match of `matchIds` that
      was not processed before the call, whose rows form one block. */
  method CrawlMatches(client: Client, caches: Caches, disk: Disk, matchIds: seq<Value>,
                      allData: seq<Row>, totalRows: nat, rowsSince: nat, processed: set<Value>, pool: set<Value>,
                      ghost files0: set<int>, ghost origin: seq<Value>)
    returns (allData': seq<Row>, totalRows': nat, rowsSince': nat, processed': set<Value>, pool': set<Value>,
             ghost origin': seq<Value>)
    requires totalRows == |allData| < MAX_ROWS
    requires rowsSince == totalRows % CHUNK_SIZE
    requires disk.files == Cadence(files0, totalRows / CHUNK_SIZE)
    requires Settled(caches.details, processed)
    requires |origin| == |allData| && Provenance(origin, processed, caches.details)
    requires caches.Valid()
    modifies client, caches, disk
    ensures caches.Valid()
    ensures (forall m :: m in matchIds ==> m in processed) ==>
      && client.sent == old(client.sent) && client.slept == old(client.slept)
      && caches.details == old(caches.details) && caches.timelines == old(caches.timelines)
      && caches.ranks == old(caches.ranks) && caches.masteries == old(caches.masteries)
      && disk.files == old(disk.files)
      && allData' == allData && processed' == processed && pool' == pool && origin' == origin
    ensures totalRows' == |allData'| <= MAX_ROWS && allData <= allData'
    ensures rowsSince' == totalRows' % CHUNK_SIZE
    ensures disk.files == Cadence(files0, totalRows' / CHUNK_SIZE)
    ensures Settled(caches.details, processed')
    ensures processed <= processed' && pool <= pool'
    ensures forall m :: m in processed' && m !in processed ==> m in matchIds
    ensures |origin'| == |allData'| && origin <= origin'
    ensures Provenance(origin', processed', caches.details)
    ensures forall i :: |origin| <= i < |origin'| ==> origin'[i] !in processed
    ensures totalRows' == totalRows ==> pool' == pool
  {
    allData', totalRows', rowsSince', processed', pool', origin' := allData, totalRows, rowsSince, processed, pool, origin;
    ghost var seen := forall m :: m in matchIds ==> m in processed;
    var j := 0;
    while j < |matchIds|
      invariant 0 <= j <= |matchIds|
      invariant seen ==>
        && client.sent == old(client.sent) && client.slept == old(client.slept)
        && caches.details == old(caches.details) && caches.timelines == old(caches.timelines)
        && caches.ranks == old(caches.ranks) && caches.masteries == old(caches.masteries)
        && disk.files == old(disk.files)
        && allData' == allData && processed' == processed && pool' == pool && origin' == origin
      invariant totalRows' == |allData'| < MAX_ROWS && allData <= allData'
      invariant rowsSince' == totalRows' % CHUNK_SIZE
      invariant disk.files == Cadence(files0, totalRows' / CHUNK_SIZE)
      invariant Settled(caches.details, processed')
      invariant processed <= processed' && pool <= pool'
      invariant forall m :: m in processed' && m !in processed ==> m in matchIds[..j]
      invariant |origin'| == |allData'| && origin <= origin'
      invariant Provenance(origin', processed', caches.details)
      invariant caches.Valid()
      invariant forall i :: |origin| <= i < |origin'| ==> origin'[i] !in processed
      invariant totalRows' == totalRows ==> pool' == pool
    {
      ghost var before := origin';
      allData', totalRows', rowsSince', processed', pool', origin' :=
        VisitMatch(client, caches, disk, matchIds[j], allData', totalRows', rowsSince', processed', pool',
                   files0, origin');
      NewBlockFresh(origin, before, origin', matchIds[j], processed);
      j := j + 1;
      if totalRows' >= MAX_ROWS {
        return;
      }
    }
  }

  /** main: crawl from `initialPuuid` until MAX_ROWS rows are collected or no
      player is pending, then save the rows left over since the last save. */
  method Run(client: Client, caches: Caches, disk: Disk, initialPuuid: Value)
    returns (allData: seq<Row>, totalRows: nat, processed: set<Value>, pool: set<Value>, ghost origin: seq<Value>)
    requires caches.Valid()
    modifies client, caches, disk
    ensures caches.Valid()
    ensures totalRows == |allData| <= MAX_ROWS
    ensures |origin| == |allData| && Provenance(origin, processed, caches.details)
    ensures totalRows < MAX_ROWS ==> pool == {}
    ensures disk.files == Flushed(old(disk.files), totalRows)
    ensures Settled(caches.details, processed)
  {
    pool := {initialPuuid};
    processed := {};
    allData := [];
    totalRows := 0;
    var rowsSince := 0;
    ghost var files0 := disk.files;
    origin := [];
    while totalRows < MAX_ROWS && pool != {}
      invariant totalRows == |allData| <= MAX_ROWS
      invariant rowsSince == totalRows % CHUNK_SIZE
      invariant disk.files == Cadence(files0, totalRows / CHUNK_SIZE)
      invariant Settled(caches.details, processed)
      invariant |origin| == |allData| && Provenance(origin, processed, caches.details)
      invariant caches.Valid()
      decreases MAX_ROWS - totalRows, |pool|
    {
      var current :| current in pool;
      pool := pool - {current};
      var matchIds := GetMatchHistory(client, current);
      if Truthy(matchIds) {
        allData, totalRows, rowsSince, processed, pool, origin :=
          CrawlMatches(client, caches, disk, AsArr(matchIds), allData, totalRows, rowsSince, processed, pool, files0, origin);
      }
    }
    if allData != [] && totalRows % CHUNK_SIZE != 0 {
      SaveChunkToCsv(disk, allData, totalRows);
    }
  }
}

=== FILE: finalstats.dfy ===
/**
 * `get_final_champion_stats`: the 25 champion statistics of one participant, read
 * from the last frame of a match timeline.
 */
module FinalStats {

  import opened Wrappers
  import opened Json
  import opened Columns

  /** Python's `str(participant_id)` for the values a participant id can hold;
      None for a float, list or object, whose text form is not modelled. */
  function FrameKey(pid: Value): Option<string> {
    match pid
    case Null => Some("None")
    case Bool(b) => Some(if b then "True" else "False")
    case Int(i) => Some(DecimalString(i))
    case Str(s) => Some(s)
    case _ => None
  }

  /** Distinct integer participant ids read distinct frame entries. */
  lemma FrameKeyInjective(a: int, b: int)
    requires a != b
    ensures FrameKey(Int(a)) != FrameKey(Int(b))
  {
    DecimalStringInjective(a, b);
  }

  /** The frames of a timeline (`[]` when the timeline or its frames are missing). */
  function Frames(timeline: Value): seq<Value> {
    AsArr(Field(AsObj(Field(AsObj(timeline), "info")), "frames"))
  }

  /** The timeline carries at least one frame, so final statistics are reported. */
  predicate HasFrames(timeline: Value) {
    Truthy(timeline) && Frames(timeline) != []
  }

  /** The `championStats` object of participant `pid` in the last frame. */
  function ChampionStats(timeline: Value, pid: Value): Object
    requires HasFrames(timeline)
  {
    var frames := Frames(timeline);
    var participantFrames := AsObj(Field(AsObj(frames[|frames| - 1]), "participantFrames"));
    var frame := match FrameKey(pid)
      case Some(k) => AsObj(Field(participantFrames, k))
      case None => map[];
    AsObj(Field(frame, "championStats"))
  }

  /** Every statistic the crawler reports appears in its list. */
  lemma AllStatsListed(s: Stat)
    ensures s in STATS
  {
  }

  /** The dictionary get_final_champion_stats returns: key `s` stands for the
      column `final_` + the statistic's name (`Final(s)`). */
  type Finals = map<Stat, Value>

  /** The 25 `final_*` columns read from a `championStats` object. */
  function StatColumns(stats: Object): Finals {
    map s: Stat :: Field(stats, StatKey(s))
  }

  /** The columns written after the loop has visited `names`. */
  function Listed(stats: Object, names: seq<Stat>): Finals {
    if names == [] then map[]
    else Listed(stats, names[..|names| - 1])[names[|names| - 1] := Field(stats, StatKey(names[|names| - 1]))]
  }

  lemma {:induction false} ListedKeys(stats: Object, names: seq<Stat>)
    ensures forall s :: s in Listed(stats, names) <==> s in names
    ensures forall s :: s in Listed(stats, names) ==> Listed(stats, names)[s] == Field(stats, StatKey(s))
  {
    if names != [] {
      var init := names[..|names| - 1];
      ListedKeys(stats, init);
      assert names == init + [names[|names| - 1]];
    }
  }

  /** Visiting the whole list writes every final column. */
  lemma ListedAll(stats: Object)
    ensures Listed(stats, STATS) == StatColumns(stats)
  {
    ListedKeys(stats, STATS);
    forall s: Stat
      ensures s in Listed(stats, STATS)
    {
      AllStatsListed(s);
    }
  }

  /** The final-statistics dictionary of participant `pid`. */
  function FinalStatsOf(timeline: Value, pid: Value): Finals {
    if HasFrames(timeline) then StatColumns(ChampionStats(timeline, pid)) else map[]
  }

  /** No frames, no final keys; otherwise exactly the 25 `final_*` keys, each the
      statistic of the last frame's entry for `str(participant_id)`, None when
      missing. */
  lemma FinalStatsShape(timeline: Value, pid: Value)
    ensures var r := FinalStatsOf(timeline, pid);
      && (forall s :: s in r <==> HasFrames(timeline))
      && (forall s :: s in r ==> r[s] == Field(ChampionStats(timeline, pid), StatKey(s)))
  {
  }

  /** A participant whose frame entry lacks a statistic reads it as None. */
  lemma MissingStatIsNone(timeline: Value, pid: Value, s: Stat)
    requires HasFrames(timeline) && StatKey(s) !in ChampionStats(timeline, pid)
    ensures s in FinalStatsOf(timeline, pid) && FinalStatsOf(timeline, pid)[s] == Null
  {
  }

  /** The loop of get_final_champion_stats: one `final_*` column per listed name,
      read from the participant's `championStats`. */
  method ReadStats(stats: Object, names: seq<Stat>) returns (result: Finals)
    ensures result == Listed(stats, names)
  {
    result := map[];
    var i := 0;
    while i < |names|
      invariant 0 <= i <= |names|
      invariant result == Listed(stats, names[..i])
    {
      assert names[..i + 1][..i] == names[..i];
      result := result[names[i] := Field(stats, StatKey(names[i]))];
      i := i + 1;
    }
    assert names[..i] == names;
  }

  /** get_final_champion_stats: `{}` without a timeline or frames, otherwise the 25
      statistics of the participant's entry in the last frame. */
  method GetFinalChampionStats(timeline: Value, pid: Value) returns (result: Finals)
    ensures result == FinalStatsOf(timeline, pid)
  {
    if !Truthy(timeline) {
      return map[];
    }
    var frames := Frames(timeline);
    if frames == [] {
      return map[];
    }
    result := ReadStats(ChampionStats(timeline, pid), STATS);
    ListedAll(ChampionStats(timeline, pid));
  }
}

=== FILE: flatten.dfy ===
/**
 * `process_match_data`: one flat row per participant of a match, joining the
 * match-level fields, the participant's own fields, the summoner's rank, the
 * champion mastery and the final champion statistics, and adding each
 * participant's puuid, when it is truthy, to the crawler's pool of players.
 */
module Flatten {

  import opened Wrappers
  import opened Json
  import opened Columns
  import opened Retry
  import opened Caches
  import opened FinalStats

  /** `match_data["info"]`. */
  function MatchInfo(matchData: Value): Object {
    AsObj(Field(AsObj(matchData), "info"))
  }

  /** `info.get("participants", [])`. */
  function Participants(info: Object): seq<Value> {
    AsArr(Field(info, "participants"))
  }

  /** A participant's `puuid`. */
  function PuuidOf(part: Value): Value {
    Field(AsObj(part), "puuid")
  }

  /** The truthy puuids of the participants, the ones the pool receives. */
  function PuuidsOf(parts: seq<Value>): set<Value> {
    if parts == [] then {}
    else
      var last := PuuidOf(parts[|parts| - 1]);
      PuuidsOf(parts[..|parts| - 1]) + (if Truthy(last) then {last} else {})
  }

  /** Every participant with a truthy puuid contributes it, and nothing else does. */
  lemma {:induction false} PuuidsOfMembers(parts: seq<Value>, p: Value)
    ensures p in PuuidsOf(parts) <==> Truthy(p) && exists i :: 0 <= i < |parts| && PuuidOf(parts[i]) == p
  {
    if parts != [] {
      var init := parts[..|parts| - 1];
      PuuidsOfMembers(init, p);
      if exists i :: 0 <= i < |parts| && PuuidOf(parts[i]) == p {
        var i :| 0 <= i < |parts| && PuuidOf(parts[i]) == p;
        if i < |parts| - 1 {
          assert init[i] == parts[i];
        }
      }
      if exists i :: 0 <= i < |init| && PuuidOf(init[i]) == p {
        var i :| 0 <= i < |init| && PuuidOf(init[i]) == p;
        assert parts[i] == init[i];
      }
    }
  }

  // ---------------------------------------------------------------------------
  // The row of one participant

  /** Python's `int(x)` applied to the mastery `lastPlayTime` when it is a float. */
  function Truncated(v: Value): Value {
    if v.Num? then Int(Trunc(v.r)) else v
  }

  /** The `champion_mastery_lastPlayTime` written to the row. */
  function LastPlay(mastery: Info): Value {
    Truncated(Lookup(mastery, Mastery(LastPlayTime)))
  }

  function GameCell(info: Object, g: GameField): Cell {
    if g == GameStartUtc then UtcOf(Field(info, GameKey(g))) else Val(Field(info, GameKey(g)))
  }

  function MasteryCell(mastery: Info, m: MasteryField): Cell {
    if m == LastPlayTime then Val(LastPlay(mastery)) else Val(Lookup(mastery, Mastery(m)))
  }

  /** The `solo_*` or `flex_*` cells: `rank_data.get(...)` of each standing. */
  function Ladder(rank: Info, q: Queue): map<Standing, Cell> {
    map s: Standing :: Val(Lookup(rank, Ranked(q, s)))
  }

  /** The `final_*` cells merged in from the final statistics. */
  function FinalCells(finals: Finals): map<Stat, Cell> {
    map s | s in finals :: Val(finals[s])
  }

  /** The row of one participant: `row_data` with `final_stats` merged in.  The
      final-statistics dictionary only holds `final_*` keys, so the merge adds
      columns and overrides none. */
  function FlatRow(info: Object, part: Object, rank: Info, mastery: Info, finals: Finals): Row {
    Row(
      map g: GameField :: GameCell(info, g),
      map f: PlayerField :: Val(Field(part, PlayerKey(f))),
      map q: Queue :: Ladder(rank, q),
      map m: MasteryField :: MasteryCell(mastery, m),
      UtcOf(LastPlay(mastery)),
      FinalCells(finals))
  }

  /** Every row has every match, participant, rank and mastery column; it has a
      `final_*` column exactly when the final statistics supplied one. */
  lemma RowKeys(info: Object, part: Object, rank: Info, mastery: Info, finals: Finals, c: Column)
    ensures CellOf(FlatRow(info, part, rank, mastery, finals), c).Some? <==> !c.Final? || c.stat in finals
  {
  }

  /** The participant columns are the participant's own fields, None where the
      participant lacks one. */
  lemma PlayerColumns(info: Object, part: Object, rank: Info, mastery: Info, finals: Finals, f: PlayerField)
    ensures PlayerKey(f) in part ==> FlatRow(info, part, rank, mastery, finals).player[f] == Val(part[PlayerKey(f)])
    ensures PlayerKey(f) !in part ==> FlatRow(info, part, rank, mastery, finals).player[f] == NONE
  {
  }

  /** The rank columns of a summoner whose ladder list is `entries`: each
      standing of the last entry of its queue type, None without one. */
  lemma RankColumns(info: Object, part: Object, entries: seq<Value>, rank: Info, mastery: Info, finals: Finals)
    requires IsRankInfo(entries, rank)
    ensures forall q, s :: FlatRow(info, part, rank, mastery, finals).ranked[q][s]
                           == Val(StandingOf(LastOfQueue(entries, q), s))
  {
  }

  /** `game_start_utc` is present exactly when the match start timestamp is truthy. */
  lemma GameStartPresence(info: Object, part: Object, rank: Info, mastery: Info, finals: Finals)
    ensures FlatRow(info, part, rank, mastery, finals).game[GameStartUtc].Utc?
            <==> Truthy(Field(info, "gameStartTimestamp"))
  {
  }

  /** A float `lastPlayTime` is written truncated toward zero, never as a float,
      and the `_utc` column is present exactly when the written value is truthy. */
  lemma LastPlayTimeNormalised(info: Object, part: Object, rank: Info, mastery: Info, finals: Finals)
    ensures var row := FlatRow(info, part, rank, mastery, finals);
      var raw := Lookup(mastery, Mastery(LastPlayTime));
      var cell := row.mastery[LastPlayTime];
      && cell.Val? && !cell.v.Num?
      && (raw.Num? ==> cell == Val(Int(Trunc(raw.r))))
      && (!raw.Num? ==> cell == Val(raw))
      && (row.lastPlayUtc.Utc? <==> Truthy(cell.v))
  {
  }

  /** A fractional timestamp below one millisecond truncates to 0, so its row has
      no `_utc` text even though the raw value was truthy. */
  lemma SubMillisecondLastPlay(info: Object, part: Object, rank: Info, finals: Finals)
    ensures var mastery := BlankMastery()[Mastery(LastPlayTime) := Num(0.5)];
      var row := FlatRow(info, part, rank, mastery, finals);
      row.mastery[LastPlayTime] == Val(Int(0)) && row.lastPlayUtc == NONE
  {
    assert Trunc(0.5) == 0;
  }

  /** Rows of the same match carry identical match-level columns. */
  lemma SharedGameColumns(info: Object,
                          part1: Object, rank1: Info, mastery1: Info, finals1: Finals,
                          part2: Object, rank2: Info, mastery2: Info, finals2: Finals)
    ensures FlatRow(info, part1, rank1, mastery1, finals1).game
         == FlatRow(info, part2, rank2, mastery2, finals2).game
  {
  }

  /** A participant without a summoner id (rank `{}`) and without mastery data
      (six None fields) gets None in every rank and mastery column. */
  lemma UnrankedRow(info: Object, part: Object, finals: Finals)
    ensures var row := FlatRow(info, part, map[], BlankMastery(), finals);
      && (forall q, s :: row.ranked[q][s] == NONE)
      && (forall m :: row.mastery[m] == NONE)
      && row.lastPlayUtc == NONE
  {
    forall m
      ensures MasteryCell(BlankMastery(), m) == NONE
    {
      assert Mastery(m) in BlankMastery();
    }
  }

  /** A row has the `final_*` columns exactly when the timeline has frames. */
  lemma FinalColumnsPresence(info: Object, part: Object, rank: Info, mastery: Info, timeline: Value, s: Stat)
    ensures s in FlatRow(info, part, rank, mastery, FinalStatsOf(timeline, Field(part, "participantId"))).finals
            <==> HasFrames(timeline)
  {
    var finals := FinalStatsOf(timeline, Field(part, "participantId"));
    assert FlatRow(info, part, rank, mastery, finals).finals == FinalCells(finals);
    FinalStatsShape(timeline, Field(part, "participantId"));
    assert s in finals <==> HasFrames(timeline);
  }

  /** Rows of a match whose timeline has frames and rows of one without frames do
      not share a key set: the first carry every `final_*` key and the second
      none (their other columns are the same, `RowKeys`), which is what makes a
      CSV writer whose header came from one of them reject the other. */
  lemma FramelessRowsLackFinalKeys(info: Object, part1: Object, rank1: Info, mastery1: Info, timeline1: Value,
                                   part2: Object, rank2: Info, mastery2: Info, timeline2: Value)
    requires HasFrames(timeline1) && !HasFrames(timeline2)
    ensures forall s :: s in FlatRow(info, part1, rank1, mastery1, FinalStatsOf(timeline1, Field(part1, "participantId"))).finals
    ensures FlatRow(info, part2, rank2, mastery2, FinalStatsOf(timeline2, Field(part2, "participantId"))).finals == map[]
  {
    forall s
      ensures s in FlatRow(info, part1, rank1, mastery1, FinalStatsOf(timeline1, Field(part1, "participantId"))).finals
    {
      FinalColumnsPresence(info, part1, rank1, mastery1, timeline1, s);
    }
  }

  // ---------------------------------------------------------------------------
  // Rank and mastery as read back from the caches

  /** The rank dictionary a participant was given, read from the rank cache. */
  function RankOf(ranks: map<(Value, Value), Info>, platform: Value, summonerId: Value): Info {
    if Truthy(summonerId) && Truthy(platform) && (platform, summonerId) in ranks then ranks[(platform, summonerId)]
    else map[]
  }

  /** The mastery dictionary a participant was given, read from the mastery cache. */
  function MasteryOf(masteries: map<Value, map<Value, Info>>, puuid: Value, championId: Value): Info {
    if Truthy(puuid) && championId != Null && puuid in masteries && championId in masteries[puuid]
    then masteries[puuid][championId]
    else BlankMastery()
  }

  /** The caches hold the entries a participant's lookups read. */
  ghost predicate Cached(ranks: map<(Value, Value), Info>, masteries: map<Value, map<Value, Info>>,
                         platform: Value, part: Object) {
    && (Truthy(Field(part, "summonerId")) && Truthy(platform) ==> (platform, Field(part, "summonerId")) in ranks)
    && (Truthy(Field(part, "puuid")) && Field(part, "championId") != Null ==> Field(part, "puuid") in masteries)
  }

  /** `rank` and `mastery` are what the caches hold for participant `part`. */
  ghost predicate GivenFromCaches(ranks: map<(Value, Value), Info>, masteries: map<Value, map<Value, Info>>,
                         info: Object, part: Object, rank: Info, mastery: Info) {
    var platform := Field(info, "platformId");
    && Cached(ranks, masteries, platform, part)
    && rank == RankOf(ranks, platform, Field(part, "summonerId"))
    && mastery == MasteryOf(masteries, Field(part, "puuid"), Field(part, "championId"))
  }

  /** Caches only gain entries, so what a participant was given stays what the
      caches hold for it. */
  lemma GivenFromCachesStable(ranks: map<(Value, Value), Info>, masteries: map<Value, map<Value, Info>>,
                     ranks': map<(Value, Value), Info>, masteries': map<Value, map<Value, Info>>,
                     info: Object, part: Object, rank: Info, mastery: Info)
    requires GivenFromCaches(ranks, masteries, info, part, rank, mastery)
    requires Extends(ranks, ranks') && Extends(masteries, masteries')
    ensures GivenFromCaches(ranks', masteries', info, part, rank, mastery)
  {
  }

  /** `row` is the row of participant `part`, with the rank and mastery found in
      the caches and the final statistics of `timeline`. */
  ghost predicate RowOf(ranks: map<(Value, Value), Info>, masteries: map<Value, map<Value, Info>>,
                        info: Object, timeline: Value, part: Object, row: Row) {
    var platform := Field(info, "platformId");
    && Cached(ranks, masteries, platform, part)
    && row == FlatRow(info, part,
                      RankOf(ranks, platform, Field(part, "summonerId")),
                      MasteryOf(masteries, Field(part, "puuid"), Field(part, "championId")),
                      FinalStatsOf(timeline, Field(part, "participantId")))
  }

  /** The row of participant `part` given its rank and mastery. */
  function ParticipantRow(info: Object, timeline: Value, part: Object, given: (Info, Info)): Row {
    FlatRow(info, part, given.0, given.1, FinalStatsOf(timeline, Field(part, "participantId")))
  }

  /** `rows` are the rows of the participants, in participant order. */
  ghost predicate RowsAre(info: Object, timeline: Value, parts: seq<Value>, given: seq<(Info, Info)>, rows: seq<Row>) {
    && |rows| == |parts| == |given|
    && forall j :: 0 <= j < |parts| ==> rows[j] == ParticipantRow(info, timeline, AsObj(parts[j]), given[j])
  }

  lemma RowsAreSnoc(info: Object, timeline: Value, parts: seq<Value>, given: seq<(Info, Info)>, rows: seq<Row>,
                    i: nat, rank: Info, mastery: Info, finals: Finals)
    requires i < |parts|
    requires RowsAre(info, timeline, parts[..i], given, rows)
    requires finals == FinalStatsOf(timeline, Field(AsObj(parts[i]), "participantId"))
    ensures RowsAre(info, timeline, parts[..i + 1], given + [(rank, mastery)],
                    rows + [FlatRow(info, AsObj(parts[i]), rank, mastery, finals)])
  {
    var parts', given', rows' := parts[..i + 1], given + [(rank, mastery)], rows + [FlatRow(info, AsObj(parts[i]), rank, mastery, finals)];
    forall j | 0 <= j < i + 1
      ensures rows'[j] == ParticipantRow(info, timeline, AsObj(parts'[j]), given'[j])
    {
      if j < i {
        assert rows'[j] == rows[j] && parts'[j] == parts[..i][j] && given'[j] == given[j];
      } else {
        assert parts'[j] == parts[i] && given'[j] == (rank, mastery);
      }
    }
  }

  /** Every participant was given what the caches hold for it. */
  ghost predicate AllJoined(ranks: map<(Value, Value), Info>, masteries: map<Value, map<Value, Info>>,
                            info: Object, parts: seq<Value>, given: seq<(Info, Info)>)
    requires |given| == |parts|
  {
    forall j :: 0 <= j < |parts| ==> GivenFromCaches(ranks, masteries, info, AsObj(parts[j]), given[j].0, given[j].1)
  }

  lemma AllJoinedStable(ranks: map<(Value, Value), Info>, masteries: map<Value, map<Value, Info>>,
                        ranks': map<(Value, Value), Info>, masteries': map<Value, map<Value, Info>>,
                        info: Object, parts: seq<Value>, given: seq<(Info, Info)>)
    requires |given| == |parts|
    requires AllJoined(ranks, masteries, info, parts, given)
    requires Extends(ranks, ranks') && Extends(masteries, masteries')
    ensures AllJoined(ranks', masteries', info, parts, given)
  {
    forall j | 0 <= j < |parts|
      ensures GivenFromCaches(ranks', masteries', info, AsObj(parts[j]), given[j].0, given[j].1)
    {
      GivenFromCachesStable(ranks, masteries, ranks', masteries', info, AsObj(parts[j]), given[j].0, given[j].1);
    }
  }

  lemma AllJoinedSnoc(ranks: map<(Value, Value), Info>, masteries: map<Value, map<Value, Info>>,
                      info: Object, parts: seq<Value>, given: seq<(Info, Info)>, i: nat, rank: Info, mastery: Info)
    requires |given| == i < |parts|
    requires AllJoined(ranks, masteries, info, parts[..i], given)
    requires GivenFromCaches(ranks, masteries, info, AsObj(parts[i]), rank, mastery)
    ensures AllJoined(ranks, masteries, info, parts[..i + 1], given + [(rank, mastery)])
  {
  }

  /** The rows built from what the caches hold are the rows of their participants. */
  lemma AllJoinedRows(ranks: map<(Value, Value), Info>, masteries: map<Value, map<Value, Info>>,
                      info: Object, timeline: Value, parts: seq<Value>, given: seq<(Info, Info)>, rows: seq<Row>)
    requires RowsAre(info, timeline, parts, given, rows)
    requires AllJoined(ranks, masteries, info, parts, given)
    ensures forall j :: 0 <= j < |parts| ==> RowOf(ranks, masteries, info, timeline, AsObj(parts[j]), rows[j])
  {
  }

  /** `get_summoner_rank` as the row sees it: the rank read back from the cache,
      which only gains entries. */
  method RankFor(client: Client, caches: Caches, platform: Value, summonerId: Value) returns (rank: Info)
    requires caches.Valid()
    modifies client, caches`ranks
    ensures caches.Valid()
    ensures Extends(old(caches.ranks), caches.ranks)
    ensures Truthy(summonerId) && Truthy(platform) ==> (platform, summonerId) in caches.ranks
    ensures rank == RankOf(caches.ranks, platform, summonerId)
  {
    ghost var ranks0 := caches.ranks;
    rank := caches.GetSummonerRank(client, summonerId, platform);
    if Truthy(summonerId) && Truthy(platform) {
      assert caches.ranks == ranks0[(platform, summonerId) := rank];
    }
  }

  /** `get_champion_mastery` as the row sees it: the mastery read back from the
      cache, which only gains entries. */
  method MasteryFor(client: Client, caches: Caches, puuid: Value, championId: Value) returns (mastery: Info)
    requires caches.Valid()
    modifies client, caches`masteries
    ensures caches.Valid()
    ensures Extends(old(caches.masteries), caches.masteries)
    ensures Truthy(puuid) && championId != Null ==> puuid in caches.masteries
    ensures mastery == MasteryOf(caches.masteries, puuid, championId)
  {
    mastery := caches.GetChampionMastery(client, puuid, championId);
  }

  /** The rank and mastery lookups of participant `i`: what it is given is what
      the caches then hold for it, and what earlier participants were given
      still is. */
  method JoinParticipant(client: Client, caches: Caches, info: Object, parts: seq<Value>, i: nat,
                         ghost given: seq<(Info, Info)>)
    returns (rank: Info, mastery: Info)
    requires |given| == i < |parts|
    requires AllJoined(caches.ranks, caches.masteries, info, parts[..i], given)
    requires caches.Valid()
    modifies client, caches`ranks, caches`masteries
    ensures caches.Valid()
    ensures Extends(old(caches.ranks), caches.ranks) && Extends(old(caches.masteries), caches.masteries)
    ensures AllJoined(caches.ranks, caches.masteries, info, parts[..i + 1], given + [(rank, mastery)])
  {
    var part := AsObj(parts[i]);
    ghost var ranks0, masteries0 := caches.ranks, caches.masteries;
    rank := RankFor(client, caches, Field(info, "platformId"), Field(part, "summonerId"));
    ghost var ranks1 := caches.ranks;
    mastery := MasteryFor(client, caches, Field(part, "puuid"), Field(part, "championId"));
    assert caches.ranks == ranks1;
    AllJoinedStable(ranks0, masteries0, caches.ranks, caches.masteries, info, parts[..i], given);
    AllJoinedSnoc(caches.ranks, caches.masteries, info, parts, given, i, rank, mastery);
  }

  /** The row of participant `i`, from its rank, its mastery and its final
      statistics, appended to the rows of the participants before it. */
  method AppendRow(info: Object, timeline: Value, parts: seq<Value>, i: nat, rows: seq<Row>,
                   ghost given: seq<(Info, Info)>, rank: Info, mastery: Info)
    returns (rows': seq<Row>)
    requires i < |parts|
    requires RowsAre(info, timeline, parts[..i], given, rows)
    ensures RowsAre(info, timeline, parts[..i + 1], given + [(rank, mastery)], rows')
  {
    var part := AsObj(parts[i]);
    var finals := GetFinalChampionStats(timeline, Field(part, "participantId"));
    RowsAreSnoc(info, timeline, parts, given, rows, i, rank, mastery, finals);
    rows' := rows + [FlatRow(info, part, rank, mastery, finals)];
  }

  /** `if p: puuid_pool.add(p)` for participant `i`. */
  method AddPuuid(parts: seq<Value>, i: nat, ghost pool: set<Value>, pool': set<Value>) returns (pool'': set<Value>)
    requires i < |parts|
    requires pool' == pool + PuuidsOf(parts[..i])
    ensures pool'' == pool + PuuidsOf(parts[..i + 1])
  {
    var p := PuuidOf(parts[i]);
    assert parts[..i + 1][..i] == parts[..i];
    pool'' := pool';
    if Truthy(p) {
      pool'' := pool'' + {p};
    }
  }

  /** The loop invariant of process_match_data after `i` participants. */
  ghost predicate Processed(ranks: map<(Value, Value), Info>, masteries: map<Value, map<Value, Info>>,
                            info: Object, timeline: Value, parts: seq<Value>, i: nat,
                            given: seq<(Info, Info)>, rows: seq<Row>)
  {
    && i <= |parts| && |given| == i
    && RowsAre(info, timeline, parts[..i], given, rows)
    && AllJoined(ranks, masteries, info, parts[..i], given)
  }

  /** One pass of the participant loop after the puuid has joined the pool: the
      lookups run and the participant's row is appended. */
  method AddParticipant(client: Client, caches: Caches, info: Object, timeline: Value, parts: seq<Value>, i: nat,
                        rows: seq<Row>, ghost given: seq<(Info, Info)>)
    returns (rows': seq<Row>, ghost given': seq<(Info, Info)>)
    requires i < |parts|
    requires Processed(caches.ranks, caches.masteries, info, timeline, parts, i, given, rows)
    requires caches.Valid()
    modifies client, caches`ranks, caches`masteries
    ensures caches.Valid()
    ensures Extends(old(caches.ranks), caches.ranks) && Extends(old(caches.masteries), caches.masteries)
    ensures Processed(caches.ranks, caches.masteries, info, timeline, parts, i + 1, given', rows')
  {
    var rank, mastery := JoinParticipant(client, caches, info, parts, i, given);
    rows' := AppendRow(info, timeline, parts, i, rows, given, rank, mastery);
    given' := given + [(rank, mastery)];
  }

  // ---------------------------------------------------------------------------
  // process_match_data

  /** `rows` are the rows of a match's participants, one per participant in
      participant order, each built from what the caches hold for it. */
  ghost predicate MatchRows(ranks: map<(Value, Value), Info>, masteries: map<Value, map<Value, Info>>,
                            matchData: Value, timeline: Value, rows: seq<Row>) {
    var info := MatchInfo(matchData);
    var parts := Participants(info);
    && |rows| == |parts|
    && forall i :: 0 <= i < |rows| ==> RowOf(ranks, masteries, info, timeline, AsObj(parts[i]), rows[i])
  }

  /** The ladder cells of `row` are the standings of the last entry of each queue
      type in the ladder list `entries`, None without one. */
  ghost predicate LaddersFrom(row: Row, entries: seq<Value>) {
    forall q, s :: q in row.ranked && s in row.ranked[q] && row.ranked[q][s] == Val(StandingOf(LastOfQueue(entries, q), s))
  }

  /** When the rank cache holds only dictionaries built from ladder lists, every
      row of a match has the ladder cells of some ladder list: the summoner's own,
      or the empty list for a participant whose lookup was skipped. */
  lemma MatchRowLadders(ranks: map<(Value, Value), Info>, masteries: map<Value, map<Value, Info>>,
                        matchData: Value, timeline: Value, rows: seq<Row>, i: int)
    requires RanksFromLadders(ranks) && MatchRows(ranks, masteries, matchData, timeline, rows)
    requires 0 <= i < |rows|
    ensures exists entries :: LaddersFrom(rows[i], entries)
  {
    var info := MatchInfo(matchData);
    var part := AsObj(Participants(info)[i]);
    var platform := Field(info, "platformId");
    var summonerId := Field(part, "summonerId");
    assert RowOf(ranks, masteries, info, timeline, part, rows[i]);
    if Truthy(summonerId) && Truthy(platform) && (platform, summonerId) in ranks {
      var entries :| IsRankInfo(entries, ranks[(platform, summonerId)]);
      RankColumns(info, part, entries, ranks[(platform, summonerId)],
                  MasteryOf(masteries, Field(part, "puuid"), Field(part, "championId")),
                  FinalStatsOf(timeline, Field(part, "participantId")));
      assert LaddersFrom(rows[i], entries);
    } else {
      assert LaddersFrom(rows[i], []);
    }
  }

  /** process_match_data: `[]` for a missing match; otherwise one row per
      participant in participant order, each the row of its participant, with
      every truthy puuid added to the pool and the caches only gaining entries. */
  method ProcessMatchData(client: Client, caches: Caches, matchData: Value, timeline: Value, pool: set<Value>)
    returns (rows: seq<Row>, pool': set<Value>)
    requires caches.Valid()
    modifies client, caches`ranks, caches`masteries
    ensures caches.Valid()
    ensures !Truthy(matchData) ==>
      && rows == [] && pool' == pool && caches.ranks == old(caches.ranks) && caches.masteries == old(caches.masteries)
      && client.sent == old(client.sent) && client.slept == old(client.slept)
    ensures Truthy(matchData) ==>
      && MatchRows(caches.ranks, caches.masteries, matchData, timeline, rows)
      && pool' == pool + PuuidsOf(Participants(MatchInfo(matchData)))
    ensures Extends(old(caches.ranks), caches.ranks) && Extends(old(caches.masteries), caches.masteries)
  {
    if !Truthy(matchData) {
      return [], pool;
    }
    var info := MatchInfo(matchData);
    var parts := Participants(info);
    rows := [];
    pool' := pool;
    ghost var given: seq<(Info, Info)> := [];
    var i := 0;
    while i < |parts|
      invariant i <= |parts|
      invariant caches.Valid()
      invariant Extends(old(caches.ranks), caches.ranks) && Extends(old(caches.masteries), caches.masteries)
      invariant pool' == pool + PuuidsOf(parts[..i])
      invariant Processed(caches.ranks, caches.masteries, info, timeline, parts, i, given, rows)
    {
      pool' := AddPuuid(parts, i, pool, pool');
      rows, given := AddParticipant(client, caches, info, timeline, parts, i, rows, given);
      i := i + 1;
    }
    assert parts[..i] == parts;
    AllJoinedRows(caches.ranks, caches.masteries, info, timeline, parts, given, rows);
  }
}

=== FILE: json.dfy ===
/** The optional value used throughout the model. */
module Wrappers {

  datatype Option<+T> = None | Some(value: T) {

    /** Python's `d.get(k, default)` once the lookup has produced an Option. */
    function GetOr(default: T): T {
      match this
      case Some(v) => v
      case None => default
    }
  }
}

/**
 * JSON documents as the crawler sees them after `resp.json()`: Python's None is
 * `Null`, a JSON number with a fraction is a `Num` (a real here, not an IEEE float),
 * and objects are maps from keys to values.  A flattened row holds `Cell`s: either a
 * JSON value copied from a payload, or a calendar text derived from a millisecond
 * timestamp, of which the model keeps only the timestamp it was computed from.
 */
module Json {

  import opened Wrappers

  datatype Value =
    | Null
    | Bool(b: bool)
    | Int(i: int)
    | Num(r: real)
    | Str(s: string)
    | Arr(items: seq<Value>)
    | Obj(fields: map<string, Value>)

  type Object = map<string, Value>

  /** Python truthiness of a decoded JSON value (`if x:` / `if not x:`). */
  predicate Truthy(v: Value) {
    match v
    case Null => false
    case Bool(b) => b
    case Int(i) => i != 0
    case Num(r) => r != 0.0
    case Str(s) => s != ""
    case Arr(items) => items != []
    case Obj(fields) => fields != map[]
  }

  /** `o.get(k)`: a missing key reads as None, exactly like a key bound to JSON null. */
  function Field(o: Object, k: string): Value {
    if k in o then o[k] else Null
  }

  /** The object a payload field is expected to hold; any other shape reads as `{}`. */
  function AsObj(v: Value): Object {
    if v.Obj? then v.fields else map[]
  }

  /** The list a payload field is expected to hold; any other shape reads as `[]`. */
  function AsArr(v: Value): seq<Value> {
    if v.Arr? then v.items else []
  }

  /** Python's `int(x)` on a float: truncation toward zero. */
  function Trunc(r: real): (i: int)
    ensures 0.0 <= r ==> i as real <= r < i as real + 1.0
    ensures r < 0.0 ==> i as real - 1.0 < r <= i as real
  {
    if r >= 0.0 then r.Floor else -((-r).Floor)
  }

  /** A cell of a flattened row. */
  datatype Cell =
    | Val(v: Value)
    /** An ISO-8601 UTC text computed from `millis`; only its presence is modelled. */
    | Utc(millis: Value)

  const NONE: Cell := Val(Null)

  /** `dt.isoformat() + "Z"` when the timestamp is truthy, None otherwise. */
  function UtcOf(millis: Value): Cell {
    if Truthy(millis) then Utc(millis) else NONE
  }

  // ---------------------------------------------------------------------------
  // Python's str() on an int, used to key a timeline frame by participant id.

  function DigitChar(d: nat): (c: char)
    requires d < 10
    ensures '0' <= c <= '9' && c as int - '0' as int == d
  {
    ('0' as int + d) as char
  }

  predicate IsDigits(s: string) {
    forall k :: 0 <= k < |s| ==> '0' <= s[k] <= '9'
  }

  function NatString(n: nat): (s: string)
    ensures |s| >= 1 && IsDigits(s)
    decreases n
  {
    if n < 10 then [DigitChar(n)] else NatString(n / 10) + [DigitChar(n % 10)]
  }

  /** `str(i)` for a Python int. */
  function DecimalString(i: int): (s: string)
    ensures |s| >= 1
    ensures i < 0 <==> s[0] == '-'
  {
    if i < 0 then "-" + NatString(-i) else NatString(i)
  }

  /** The value of a string of decimal digits (the partner of NatString). */
  function DigitsValue(s: string): nat
    requires IsDigits(s)
  {
    if s == [] then 0
    else DigitsValue(s[..|s| - 1]) * 10 + (s[|s| - 1] as int - '0' as int)
  }

  /** Python's `int(s)` on an optionally signed digit string; None when `s` is not one. */
  function ParseDecimal(s: string): Option<int> {
    if |s| >= 2 && s[0] == '-' && IsDigits(s[1..]) then Some(-(DigitsValue(s[1..]) as int))
    else if |s| >= 1 && IsDigits(s) then Some(DigitsValue(s))
    else None
  }

  lemma {:induction false} NatStringRoundTrip(n: nat)
    ensures DigitsValue(NatString(n)) == n
    decreases n
  {
    if n >= 10 {
      var s := NatString(n);
      assert s[..|s| - 1] == NatString(n / 10);
      NatStringRoundTrip(n / 10);
    }
  }

  lemma NatParse(n: nat)
    ensures ParseDecimal(NatString(n)) == Some(n)
  {
    var s := NatString(n);
    assert '0' <= s[0] <= '9';
    NatStringRoundTrip(n);
  }

  lemma NegativeParse(n: nat)
    requires n > 0
    ensures ParseDecimal("-" + NatString(n)) == Some(-(n as int))
  {
    var s := "-" + NatString(n);
    assert s[1..] == NatString(n);
    NatStringRoundTrip(n);
  }

  lemma DecimalRoundTrip(i: int)
    ensures ParseDecimal(DecimalString(i)) == Some(i)
  {
    if i < 0 {
      NegativeParse(-i);
    } else {
      NatParse(i);
    }
  }

  /** Distinct participant ids name distinct frame entries. */
  lemma DecimalStringInjective(i: int, j: int)
    ensures DecimalString(i) == DecimalString(j) ==> i == j
  {
    DecimalRoundTrip(i);
    DecimalRoundTrip(j);
  }
}

=== FILE: retry.dfy ===
/**
 * `do_request`: one logical request to the remote API, retried on transport
 * exceptions, throttling (429) and transient server errors (500/502/503/504).
 *
 * The network is a function `server(k, res)` giving the outcome of the k-th
 * attempt the process sends; a `Client` counts its attempts in `sent` (one per
 * rate-limiter slot taken) and records every sleep it asks for in `slept`.
 * `Attempts` follows `do_request`'s self-recursion; `RequestLoop` is the same
 * behaviour as a bounded loop with an attempt counter, and `Client.DoRequest`
 * runs it and accounts for the attempts and sleeps.
 */
module Retry {

  import opened Wrappers
  import opened Json

  /** The default of `max_retries`, which every recursive call falls back to. */
  const DEFAULT_MAX_RETRIES: int := 5
  const EXCEPTION_DELAY: nat := 2
  const THROTTLE_DEFAULT_DELAY: nat := 1
  const SERVER_ERROR_DELAY: nat := 5

  /** The remote resources the crawler asks for (URL building is not modelled). */
  datatype Resource =
    | MatchIds(puuid: Value, count: nat)
    | MatchDetail(matchId: Value)
    | MatchTimeline(matchId: Value)
    | LeagueEntries(platform: Value, summonerId: Value)
    | Masteries(owner: Value)

  /** What one attempt produces: an exception, or a status with an already parsed
      `Retry-After` header and the decoded body. */
  datatype Outcome =
    | Raised
    | Answered(status: int, retryAfter: Option<nat>, body: Value)

  /** How `do_request` reacts to one outcome. */
  datatype Verdict = Done(body: Option<Value>) | RetryAfter(delay: nat)

  function Classify(o: Outcome): Verdict {
    match o
    case Raised => RetryAfter(EXCEPTION_DELAY)
    case Answered(status, retryAfter, body) =>
      if status == 200 then Done(Some(body))
      else if status == 429 then RetryAfter(retryAfter.GetOr(THROTTLE_DEFAULT_DELAY))
      else if status in {500, 502, 503, 504} then RetryAfter(SERVER_ERROR_DELAY)
      else Done(None)
  }

  /** The classification: 200 answers with its body; an exception, 429 and the four
      transient 5xx statuses are retried after their delays; any other status is a
      final failure. */
  lemma ClassifyCases(o: Outcome)
    ensures Classify(o).Done? && Classify(o).body.Some? <==> o.Answered? && o.status == 200
    ensures o.Answered? && o.status == 200 ==> Classify(o) == Done(Some(o.body))
    ensures Classify(o) == Done(None) <==> o.Answered? && o.status !in {200, 429, 500, 502, 503, 504}
    ensures o.Raised? ==> Classify(o) == RetryAfter(EXCEPTION_DELAY)
    ensures o.Answered? && o.status == 429 ==>
              Classify(o) == RetryAfter(o.retryAfter.GetOr(THROTTLE_DEFAULT_DELAY))
    ensures o.Answered? && o.status in {500, 502, 503, 504} ==> Classify(o) == RetryAfter(SERVER_ERROR_DELAY)
  {
  }

  /** What a request call returned, the sleeps it asked for and the attempts it sent. */
  datatype Reply = Reply(body: Option<Value>, sleeps: seq<nat>, attempts: nat)

  /** `do_request(..., retries, max_retries)` with the first attempt numbered `start`.
      A retry calls itself with `retries + 1` and the DEFAULT limit, as `do_request` does. */
  function Attempts(server: (nat, Resource) -> Outcome, res: Resource, start: nat,
                    retries: nat, maxRetries: int): Reply
    decreases if maxRetries == DEFAULT_MAX_RETRIES then 0 else 1, DEFAULT_MAX_RETRIES + 1 - retries
  {
    if retries > maxRetries then Reply(None, [], 0)
    else
      match Classify(server(start, res))
      case Done(body) => Reply(body, [], 1)
      case RetryAfter(delay) =>
        var rest := Attempts(server, res, start + 1, retries + 1, DEFAULT_MAX_RETRIES);
        Reply(rest.body, [delay] + rest.sleeps, rest.attempts + 1)
  }

  /** The reply `r` preceded by the retried attempts that slept for `done`. */
  function Joined(done: seq<nat>, r: Reply): Reply {
    Reply(r.body, done + r.sleeps, |done| + r.attempts)
  }

  /** A top-level call of `do_request` (the callers never pass `retries`). */
  function Request(server: (nat, Resource) -> Outcome, res: Resource, start: nat, maxRetries: int): Reply {
    Attempts(server, res, start, 0, maxRetries)
  }

  // ---------------------------------------------------------------------------
  // The same behaviour as a trace: an unbroken run of retried attempts, each
  // followed by the sleep its outcome calls for, ended by a final answer or by
  // giving up once the retry budget is spent.

  /** Attempts `start`, `start + 1`, ... were each retried after the matching sleep. */
  ghost predicate RetriedFrom(server: (nat, Resource) -> Outcome, res: Resource, start: nat, sleeps: seq<nat>) {
    forall j :: 0 <= j < |sleeps| ==> Classify(server(start + j, res)) == RetryAfter(sleeps[j])
  }

  /** `r` is what a call entered with `retries` under the default limit returns:
      its sleeps follow retried attempts, and then either the next attempt settles
      the call within the budget, or the budget is spent and the answer is None. */
  ghost predicate Settles(server: (nat, Resource) -> Outcome, res: Resource, start: nat, retries: nat, r: Reply) {
    && RetriedFrom(server, res, start, r.sleeps)
    && (|| (&& retries + |r.sleeps| <= DEFAULT_MAX_RETRIES
            && r.attempts == |r.sleeps| + 1
            && Classify(server(start + |r.sleeps|, res)) == Done(r.body))
        || (&& retries + |r.sleeps| == DEFAULT_MAX_RETRIES + 1
            && r.attempts == |r.sleeps|
            && r.body == None))
  }

  /** What a top-level call with `max_retries` returns, as a trace. */
  ghost predicate Answers(server: (nat, Resource) -> Outcome, res: Resource, start: nat, maxRetries: int, r: Reply) {
    if maxRetries < 0 then r == Reply(None, [], 0) else Settles(server, res, start, 0, r)
  }

  lemma RetriedHead(server: (nat, Resource) -> Outcome, res: Resource, start: nat, sleeps: seq<nat>)
    requires RetriedFrom(server, res, start, sleeps) && sleeps != []
    ensures Classify(server(start, res)) == RetryAfter(sleeps[0])
  {
    assert Classify(server(start + 0, res)) == RetryAfter(sleeps[0]);
  }

  lemma RetriedCons(server: (nat, Resource) -> Outcome, res: Resource, start: nat, delay: nat, sleeps: seq<nat>)
    ensures RetriedFrom(server, res, start, [delay] + sleeps) <==>
      Classify(server(start, res)) == RetryAfter(delay) && RetriedFrom(server, res, start + 1, sleeps)
  {
    var all := [delay] + sleeps;
    if RetriedFrom(server, res, start, all) {
      RetriedHead(server, res, start, all);
      forall j | 0 <= j < |sleeps|
        ensures Classify(server(start + 1 + j, res)) == RetryAfter(sleeps[j])
      {
        assert Classify(server(start + (j + 1), res)) == RetryAfter(all[j + 1]);
      }
    }
    if Classify(server(start, res)) == RetryAfter(delay) && RetriedFrom(server, res, start + 1, sleeps) {
      forall j | 0 <= j < |all|
        ensures Classify(server(start + j, res)) == RetryAfter(all[j])
      {
        if j > 0 {
          assert Classify(server(start + 1 + (j - 1), res)) == RetryAfter(sleeps[j - 1]);
        }
      }
    }
  }

  /** A retried first attempt prefixes its sleep to the trace of the rest. */
  lemma SettlesCons(server: (nat, Resource) -> Outcome, res: Resource, start: nat, retries: nat,
                    delay: nat, r: Reply)
    requires Classify(server(start, res)) == RetryAfter(delay)
    ensures Settles(server, res, start, retries, Joined([delay], r)) <==> Settles(server, res, start + 1, retries + 1, r)
  {
    RetriedCons(server, res, start, delay, r.sleeps);
    assert start + |Joined([delay], r).sleeps| == start + 1 + |r.sleeps|;
  }

  /** A trace that starts with a retried attempt splits into that sleep and a trace
      of the rest. */
  lemma SettlesUncons(server: (nat, Resource) -> Outcome, res: Resource, start: nat, retries: nat, r: Reply)
    returns (rest: Reply)
    requires retries <= DEFAULT_MAX_RETRIES && Classify(server(start, res)).RetryAfter?
    requires Settles(server, res, start, retries, r)
    ensures r == Joined([Classify(server(start, res)).delay], rest)
    ensures Settles(server, res, start + 1, retries + 1, rest)
  {
    RetriedHead(server, res, start, r.sleeps);
    rest := Reply(r.body, r.sleeps[1..], r.attempts - 1);
    assert r.sleeps == [r.sleeps[0]] + rest.sleeps;
    SettlesCons(server, res, start, retries, Classify(server(start, res)).delay, rest);
  }

  /** One retried attempt under the default limit, in the recursive definition. */
  lemma AttemptsCons(server: (nat, Resource) -> Outcome, res: Resource, start: nat, retries: nat)
    requires retries <= DEFAULT_MAX_RETRIES && Classify(server(start, res)).RetryAfter?
    ensures Attempts(server, res, start, retries, DEFAULT_MAX_RETRIES) ==
      Joined([Classify(server(start, res)).delay], Attempts(server, res, start + 1, retries + 1, DEFAULT_MAX_RETRIES))
  {
  }

  lemma AttemptsStop(server: (nat, Resource) -> Outcome, res: Resource, start: nat, retries: nat)
    requires retries <= DEFAULT_MAX_RETRIES + 1
    requires retries > DEFAULT_MAX_RETRIES || Classify(server(start, res)).Done?
    ensures Settles(server, res, start, retries, Attempts(server, res, start, retries, DEFAULT_MAX_RETRIES))
  {
  }

  /** The recursive definition produces a trace. */
  lemma {:induction false} AttemptsSettle(server: (nat, Resource) -> Outcome, res: Resource, start: nat, retries: nat)
    requires retries <= DEFAULT_MAX_RETRIES + 1
    ensures Settles(server, res, start, retries, Attempts(server, res, start, retries, DEFAULT_MAX_RETRIES))
    decreases DEFAULT_MAX_RETRIES + 1 - retries
  {
    if retries <= DEFAULT_MAX_RETRIES && Classify(server(start, res)).RetryAfter? {
      AttemptsCons(server, res, start, retries);
      AttemptsSettle(server, res, start + 1, retries + 1);
      SettlesCons(server, res, start, retries, Classify(server(start, res)).delay,
                  Attempts(server, res, start + 1, retries + 1, DEFAULT_MAX_RETRIES));
    } else {
      AttemptsStop(server, res, start, retries);
    }
  }

  lemma SettledStops(server: (nat, Resource) -> Outcome, res: Resource, start: nat, retries: nat, r: Reply)
    requires retries <= DEFAULT_MAX_RETRIES + 1 && Settles(server, res, start, retries, r)
    requires retries > DEFAULT_MAX_RETRIES || Classify(server(start, res)).Done?
    ensures r == Attempts(server, res, start, retries, DEFAULT_MAX_RETRIES)
  {
    if retries <= DEFAULT_MAX_RETRIES && r.sleeps != [] {
      RetriedHead(server, res, start, r.sleeps);
    }
  }

  /** A trace is the only reply the recursive definition allows. */
  lemma {:induction false} SettledIsAttempts(server: (nat, Resource) -> Outcome, res: Resource, start: nat,
                                             retries: nat, r: Reply)
    requires retries <= DEFAULT_MAX_RETRIES + 1 && Settles(server, res, start, retries, r)
    ensures r == Attempts(server, res, start, retries, DEFAULT_MAX_RETRIES)
    decreases DEFAULT_MAX_RETRIES + 1 - retries
  {
    if retries <= DEFAULT_MAX_RETRIES && Classify(server(start, res)).RetryAfter? {
      var rest := SettlesUncons(server, res, start, retries, r);
      SettledIsAttempts(server, res, start + 1, retries + 1, rest);
    } else {
      SettledStops(server, res, start, retries, r);
    }
  }

  /** Because the recursive calls do not pass `max_retries` on, a non-negative
      `max_retries` changes nothing: the call behaves exactly as with the default. */
  lemma MaxRetriesOnlyGatesFirstAttempt(server: (nat, Resource) -> Outcome, res: Resource,
                                        start: nat, maxRetries: int)
    requires 0 <= maxRetries
    ensures Request(server, res, start, maxRetries) == Request(server, res, start, DEFAULT_MAX_RETRIES)
  {
  }

  /** The trace description and the recursive one agree: a reply is a trace of the
      call exactly when it is the call's reply. */
  lemma AnswersIsRequest(server: (nat, Resource) -> Outcome, res: Resource, start: nat, maxRetries: int, r: Reply)
    ensures Answers(server, res, start, maxRetries, r) <==> r == Request(server, res, start, maxRetries)
  {
    if 0 <= maxRetries {
      MaxRetriesOnlyGatesFirstAttempt(server, res, start, maxRetries);
      AttemptsSettle(server, res, start, 0);
      if Answers(server, res, start, maxRetries, r) {
        SettledIsAttempts(server, res, start, 0, r);
      }
    }
  }

  /** Retry bound: a top-level call sends at most six attempts (none when
      `max_retries` is negative), and returns None without an answer only after
      exhausting them. */
  lemma RetryBound(server: (nat, Resource) -> Outcome, res: Resource, start: nat, maxRetries: int)
    ensures var r := Request(server, res, start, maxRetries);
      && r.attempts <= (if maxRetries < 0 then 0 else DEFAULT_MAX_RETRIES + 1)
      && (r.attempts == |r.sleeps| ==> r.attempts == (if maxRetries < 0 then 0 else DEFAULT_MAX_RETRIES + 1))
  {
    AnswersIsRequest(server, res, start, maxRetries, Request(server, res, start, maxRetries));
  }

  /** A throttled attempt followed by a success sleeps for the server's
      `Retry-After` and returns the successful body. */
  lemma ThrottledThenOk(server: (nat, Resource) -> Outcome, res: Resource, start: nat,
                        wait: nat, body: Value)
    requires server(start, res) == Answered(429, Some(wait), Null)
    requires server(start + 1, res) == Answered(200, None, body)
    ensures Request(server, res, start, DEFAULT_MAX_RETRIES) == Reply(Some(body), [wait], 2)
  {
    assert Attempts(server, res, start + 1, 1, DEFAULT_MAX_RETRIES) == Reply(Some(body), [], 1);
  }

  /** do_request as a bounded loop with an attempt counter, sending attempt
      `start + k` as its k-th try.  A negative `max_retries` sends nothing; any
      other value behaves as the default, since retries never pass it on. */
  method RequestLoop(server: (nat, Resource) -> Outcome, res: Resource, start: nat, maxRetries: int)
    returns (body: Option<Value>, sleeps: seq<nat>, attempts: nat)
    ensures Answers(server, res, start, maxRetries, Reply(body, sleeps, attempts))
  {
    if maxRetries < 0 {
      return None, [], 0;
    }
    var retries: nat := 0;
    sleeps := [];
    while retries <= DEFAULT_MAX_RETRIES
      invariant |sleeps| == retries <= DEFAULT_MAX_RETRIES + 1
      invariant RetriedFrom(server, res, start, sleeps)
    {
      var verdict := Classify(server(start + retries, res));
      if verdict.Done? {
        return verdict.body, sleeps, retries + 1;
      }
      sleeps := sleeps + [verdict.delay];
      retries := retries + 1;
    }
    return None, sleeps, retries;
  }

  class Client {
    /** The outcome of the k-th attempt this process sends for a resource. */
    const server: (nat, Resource) -> Outcome
    /** The number of attempts sent so far, i.e. of rate-limiter slots consumed. */
    var sent: nat
    /** The durations, in seconds, of the sleeps asked for between attempts. */
    var slept: seq<nat>

    constructor (server: (nat, Resource) -> Outcome)
      ensures this.server == server && sent == 0 && slept == []
    {
      this.server := server;
      sent := 0;
      slept := [];
    }

    /** The client's effect of a request that produced the reply `r`. */
    ghost predicate Issued(sent0: nat, slept0: seq<nat>, r: Reply)
      reads this
    {
      sent == sent0 + r.attempts && slept == slept0 + r.sleeps
    }

    /** do_request: returns the body of a 200 answer, or None, and accounts for the
        attempts sent and the sleeps asked for. */
    method DoRequest(res: Resource, maxRetries: int) returns (body: Option<Value>)
      modifies this
      ensures var r := Request(server, res, old(sent), maxRetries);
        body == r.body && Issued(old(sent), old(slept), r)
    {
      var sleeps, attempts;
      body, sleeps, attempts := RequestLoop(server, res, sent, maxRetries);
      AnswersIsRequest(server, res, sent, maxRetries, Reply(body, sleeps, attempts));
      sent := sent + attempts;
      slept := slept + sleeps;
    }
  }
}
